=== FILE: README.md ===
# TugBoat core in Dafny

TugBoat is a browser dashboard that finds local development servers. It probes
`localhost` ports over HTTP/HTTPS, guesses which kind of server answers (Vite,
React, Next.js, Express, webpack, a static server, a database admin page, the
macOS AirPlay receiver), and draws the ports on a radar. Ports 1000..8019 are
spread over 36 radial lines of 195 ports each, and a rotating sweep flashes
the lines as it passes. A React reducer holds the application state.

This project models that logic:

- `RadarGeometry`, `PortClustering`, `RadarStatistics` (`src/utils/util.ts`):
  - the port → line / position mapping and its inverse;
  - the piecewise-linear radius;
  - the overlap test;
  - the greedy proximity clustering, as an imperative loop;
  - the per-line statistics, as an in-place array count.
- `RadarSweep` (`src/utils/radarUtils.ts`):
  - the sweep controller, as a class whose `Tick` returns the events the source
    delivers through callbacks;
  - the trail fade;
  - the easing curves.
- `ScannerLogic` and `PortScanning` (`src/services/portScanner.ts`):
  - the decision rules (`testPort`, `detectServiceType`, its port fallback);
  - progress arithmetic and batch slicing;
  - the quick-scan candidate list;
  - the `PortScanner` class with its abort controller, `scanPorts`,
    `quickScan`, `scanRange`, `cancelScan` and `isScanning`.
- `GlobalContext` (`src/context/GlobalContext.tsx`): `globalReducer` as a pure
  transition function, with lemmas that give the result of every action.
- `Config` (`src/data/config.ts`): the constant tables and `getPlatform`.
- `Common` and `PortTypes` hold shared helpers and the record shapes of
  `src/types/port.ts`.

**What the environment supplies.** The network is an input function: for each
`(port, timeout)` it gives the outcome of the HTTP attempt and of the HTTPS
attempt. Each outcome is one of:

- the fetch returned after some elapsed time;
- it was aborted after some elapsed time;
- it failed otherwise.

Each attempt also carries the result of the second, detection fetch: it threw,
or it gave headers and a body.

Other inputs:

- The platform (`getPlatform`'s answer) is a parameter.
- Whether `scanPorts` finds its controller aborted is a parameter: the index of
  the batch before which it is found aborted (see "## Left out" on how this
  differs from `cancelScan` as written).
- The clock reading that `SET_PORTS` stores is a parameter.

Ports, counts and percentages are mathematical integers (the percentage is
rounded exactly; see "## Left out"). Radar positions,
radii, angles and fades are exact reals.

## Model

| member | source | states |
|---|---|---|
| Config.GetPlatform | src/data/config.ts:38-46 | "darwin" iff the lower-cased agent contains "mac"; "win32" iff not "mac" but "win"; "linux" iff neither but "linux"; "unknown" with no navigator |
| Config.PlatformIgnoresCase | src/data/config.ts:40 | the answer does not depend on the agent's letter case |
| Config.MacosSystemPortsTable | src/data/config.ts:49-52 | the table has exactly the keys 5000 and 7000, both AirPlay receiver |
| Config.DefaultRangesWellFormed | src/data/config.ts:6-13 | every default range has start ≤ end |
| Config.CommonDevPortsDistinct | src/data/config.ts:16-35 | the common development ports have no duplicates |
| RadarGeometry.GetPortLine | src/utils/util.ts:35-46 | −1 exactly for ports outside 1000..8019; otherwise a line 0..35 whose 195-port block contains the port |
| RadarGeometry.GetPortLineOnto | src/utils/util.ts:8-46 | every line 0..35 is reached, by the first port of its block; 1000 is on line 0 and 8019 on line 35, so the 7020 mapped ports fill the 36 lines exactly |
| RadarGeometry.GetPortPositionOnLine | src/utils/util.ts:53-67 | 0 outside the mapped range; inside, (offset within the line)/194, always within [0, 1] |
| RadarGeometry.PositionAtLineEnds | src/utils/util.ts:53-67 | the first port of each line is at 0, the last at 1 |
| RadarGeometry.LineToAngle | src/utils/util.ts:74-76 | a valid line gives a multiple of 10 in 0..350, and angle / 10 recovers the line |
| RadarGeometry.Radius | src/utils/util.ts:106-119 | the two linear pieces of the radius: 0.3 to 0.65 of the maximum over positions 0..0.5, then 0.65 to 0.95 over 0.5..1; its properties are RadiusRings, RadiusPieces, RadiusMonotone and RadiusBounds |
| RadarGeometry.RadiusRings | src/utils/util.ts:106-119 | the radius is 0.3, 0.65 and 0.95 of the maximum at positions 0, 0.5 and 1 |
| RadarGeometry.RadiusPieces | src/utils/util.ts:113-119 | the two linear pieces of the radius formula |
| RadarGeometry.RadiusMonotone | src/utils/util.ts:106-119 | the radius never decreases along a line |
| RadarGeometry.RadiusBounds | src/utils/util.ts:106-119 | for positions in [0, 1] the radius lies in [0.3·max, 0.95·max] |
| RadarGeometry.CalculatePortPosition | src/utils/util.ts:95-136 | an unmapped port gets line −1, angle −10, position 0 and the inner-ring radius; a mapped port gets its own line GetPortLine(port) in 0..35, angle 10·line in [0, 360), its position GetPortPositionOnLine(port) in [0, 1] and the radius Radius(max, position) that RadiusRings, RadiusMonotone and RadiusBounds describe |
| RadarGeometry.PortsWillOverlap | src/utils/util.ts:174-195 | true iff the lines are equal or neighbours modulo 36 and the positions differ by less than the threshold |
| RadarGeometry.OverlapSymmetric | src/utils/util.ts:174-195 | the test is symmetric in its two ports |
| RadarGeometry.DistantLinesNeverOverlap | src/utils/util.ts:184-195 | mapped ports whose lines are 2..34 apart never overlap |
| RadarGeometry.UnmappedNeighboursLinesZeroAndThirtyFour | src/utils/util.ts:174-195 | an unmapped port (line −1) counts as a neighbour of lines 0 and 34 |
| RadarGeometry.GetPortRangeForLine | src/utils/util.ts:291-303 | (0, 0) for an invalid line; otherwise exactly the 195 ports 1000 + 195·line onwards, inside 1000..8019 |
| RadarGeometry.PortInOwnLineRange | src/utils/util.ts:35-46 | every mapped port lies in the range of its own line |
| RadarGeometry.LineRangesTile | src/utils/util.ts:291-303 | line 0 starts at 1000, line 35 ends at 8019, consecutive ranges are contiguous, and the clamp never bites |
| RadarGeometry.GetPortsForLine | src/utils/util.ts:310-319 | the ascending ports start..end of the line's range: [0] for an invalid line, otherwise 195 ports that are exactly the ports mapping to that line |
| PortClustering.Insert | src/utils/util.ts:276 | inserting into a sorted list keeps it sorted and adds exactly one copy of the element |
| PortClustering.SortAscending | src/utils/util.ts:276 | the numeric sort gives a sorted permutation |
| PortClustering.GatherNear | src/utils/util.ts:248-262 | the inner loop: the seed first, then every unprocessed port within the threshold of the seed, each once |
| PortClustering.ClusterPorts | src/utils/util.ts:228-284 | every input port is in exactly one cluster; each cluster is sorted, with `isCluster` iff it has several ports; every member is the seed or within the threshold of it and was unprocessed when the seed was reached; clusters are in the order of their seeds in the input |
| RadarStatistics.Count | src/utils/util.ts:329-332 | no line outside 0..35 receives a port, and no line receives more ports than there are |
| RadarStatistics.SeqMax | src/utils/util.ts:338 | `Math.max` gives an element that bounds all the others |
| RadarStatistics.SeqMin | src/utils/util.ts:339 | `Math.min` gives an element that all the others bound |
| RadarStatistics.GetRadarStats | src/utils/util.ts:326-341 | 36 counters, one per line, that add up to the mapped ports; the average is ports/36; max and min are extreme counters; with every port mapped the counters add up to all ports and min ≤ average ≤ max |
| RadarStatistics.DistSum | src/utils/util.ts:326-333 | the counters add up to the number of mapped ports |
| RadarStatistics.SumBetweenExtremes | src/utils/util.ts:336-339 | the average of the 36 counters lies between their minimum and maximum |
| RadarSweep.JsRemNonNegative | src/utils/radarUtils.ts:72 | for non-negative angles, `%` 360 is the floored remainder, in [0, 360) |
| RadarSweep.RadarSweep.constructor | src/utils/radarUtils.ts:54-63 | angle 0, inactive, the given speed, no line triggered |
| RadarSweep.RadarSweep.Tick | src/utils/radarUtils.ts:65-96 | one animation frame: the new state and the events are those of the step function |
| RadarSweep.RadarSweep.Start | src/utils/radarUtils.ts:100-110 | the new state and events are those of the start function |
| RadarSweep.RadarSweep.Stop | src/utils/radarUtils.ts:113-119 | only `isActive` changes, to false |
| RadarSweep.RadarSweep.Reset | src/utils/radarUtils.ts:122-124 | only the angle changes, to 0; activity and the last triggered line stay |
| RadarSweep.RadarSweep.SetSpeed | src/utils/radarUtils.ts:132-134 | only the speed changes |
| RadarSweep.RadarSweep.GetState | src/utils/radarUtils.ts:137 | a copy of angle, activity and speed |
| RadarSweep.RadarSweep.IsActive | src/utils/radarUtils.ts:140 | the activity flag |
| RadarSweep.Step | src/utils/radarUtils.ts:65-96 | one animation frame of `animate` as a state and its events (angle change, line reached, sweep complete); its properties are TickAdvancesAngle, LineReports, CompletionRule, InactiveTickIsNoop and AngleStaysInRange |
| RadarSweep.Started | src/utils/radarUtils.ts:100-110 | `start` as a state and its events; its properties are StartBehaviour |
| RadarSweep.StartBehaviour | src/utils/radarUtils.ts:100-110 | starting while active changes nothing and emits nothing; otherwise it activates, emits the start event, and then runs one frame |
| RadarSweep.InactiveTickIsNoop | src/utils/radarUtils.ts:65-66 | a frame while inactive changes nothing and emits nothing |
| RadarSweep.TickAdvancesAngle | src/utils/radarUtils.ts:71-74 | an active frame moves the angle to (angle + speed) mod 360, in [0, 360), and first reports the new angle |
| RadarSweep.LineReports | src/utils/radarUtils.ts:77-92 | a line is reported iff a 10° boundary is crossed or the angle wrapped and the line differs from the last one; the line is ⌊angle/10⌋ in 0..35, reported at angle 10·line; the remembered line becomes −1 on a completion, else the reported line, else stays as it was |
| RadarSweep.CompletionRule | src/utils/radarUtils.ts:89-92 | a sweep completion is reported iff the new angle is below the speed, and it forgets the last line |
| RadarSweep.AngleStaysInRange | src/utils/radarUtils.ts:65-96 | any number of frames keeps the angle in [0, 360) and the speed unchanged |
| RadarSweep.RestOfRevolution | src/utils/radarUtils.ts:65-96 | at speed 10 from line k, the remaining 36 − k frames report lines k+1..35 then 0, complete once and end at angle 0 with no line remembered |
| RadarSweep.FullRevolution | src/utils/radarUtils.ts:65-96 | at speed 10, 36 frames come back to the starting state, report lines 1..35 then 0, and complete once |
| RadarSweep.FoldedDiff | src/utils/radarUtils.ts:157-159 | the wrapped angular difference of `calculateSweepFade`; its properties are FoldedDiffIsShorterArc |
| RadarSweep.CalculateSweepFade | src/utils/radarUtils.ts:151-167 | the fade: 1 − diff/trail within the trail, clamped at 0, and 0 beyond; its properties are FadeProperties and FadeZeroTrail |
| RadarSweep.FadeZeroTrail | src/utils/radarUtils.ts:160-166 | with a zero trail, two different angles give fade 0 |
| RadarSweep.FoldedDiffIsShorterArc | src/utils/radarUtils.ts:157-159 | the wrapped difference is the shorter arc, within [0, 180], symmetric, and 0 iff the angles agree |
| RadarSweep.FadeProperties | src/utils/radarUtils.ts:151-167 | the fade is in [0, 1]; it is 1 iff the angles coincide and 0 beyond the trail; it is symmetric, and it does not increase with the arc |
| RadarSweep.Linear | src/utils/radarUtils.ts:199 | `linear` easing; its properties are EasingEndpoints and EasingBounds |
| RadarSweep.EaseIn | src/utils/radarUtils.ts:200 | `easeIn` easing; its properties are EasingEndpoints and EasingBounds |
| RadarSweep.EaseOut | src/utils/radarUtils.ts:201 | `easeOut` easing; its properties are EasingEndpoints and EasingBounds |
| RadarSweep.EaseInOut | src/utils/radarUtils.ts:202 | `easeInOut` easing, quadratic in each half; its properties are EasingEndpoints, EaseInOutHalvesMeet and EasingBounds |
| RadarSweep.EasingEndpoints | src/utils/radarUtils.ts:198-203 | every easing maps 0 to 0 and 1 to 1; ease-in-out gives 0.5 at 0.5 |
| RadarSweep.EaseInOutHalvesMeet | src/utils/radarUtils.ts:202 | below 0.5 the first half of ease-in-out stays under 0.5 and is within 2·(0.5 − t) of it, so the two halves meet at 0.5 without a jump |
| RadarSweep.EasingBounds | src/utils/radarUtils.ts:198-203 | every easing maps [0, 1] into [0, 1] |
| ScannerLogic.FallbackServiceType | src/services/portScanner.ts:157-166 | React for 3000/3001, Vite for 5173, Express for 8080, static for 4000, unknown otherwise (each both ways) |
| ScannerLogic.DetectServiceType | src/services/portScanner.ts:93-167 | on darwin ports 5000 and 7000 are AirPlay and only they are; if the detection fetch throws, the port fallback decides |
| ScannerLogic.FirstMatch | src/services/portScanner.ts:106-155 | the classifier's rules tried in order, first match wins; its properties are FirstMatchSpec and DetectIsFirstMatch |
| ScannerLogic.FirstMatchSpec | src/services/portScanner.ts:100-155 | the first-match scan returns the service of the first firing rule, or unknown if none fires |
| ScannerLogic.DetectIsFirstMatch | src/services/portScanner.ts:100-155 | a successful detection is the first-match scan over the rule list in source order |
| ScannerLogic.RuleOrder | src/services/portScanner.ts:106-155 | a body mentioning "vite" always gives Vite; React is reported only for a body mentioning "react" and not "vite"; unknown iff no rule fires |
| ScannerLogic.Decisive | src/services/portScanner.ts:42-73 | an attempt settles the port when it got a response, or was aborted after at least 90% of the timeout; used by Settled, TryUrls and TestPort |
| ScannerLogic.Settled | src/services/portScanner.ts:42-73 | a response gives online with its time and detected type; a late abort gives online, unknown, the timeout as time and the timeout error |
| ScannerLogic.TryUrls | src/services/portScanner.ts:35-87 | online iff some attempt is decisive; otherwise offline, unknown, no time and no error |
| ScannerLogic.FirstDecisiveWins | src/services/portScanner.ts:35-80 | the first decisive attempt decides the result |
| ScannerLogic.TestPort | src/services/portScanner.ts:28-88 | HTTP decides if decisive, else HTTPS if decisive, else offline |
| ScannerLogic.Statuses | src/services/portScanner.ts:197-218 | one probe result per port, in order, each about its own port |
| ScannerLogic.StatusesAt | src/services/portScanner.ts:197-218 | the i-th result is the probe of the i-th port |
| ScannerLogic.StatusesAppend | src/services/portScanner.ts:189-218 | probing two lists one after the other gives the results of their concatenation |
| ScannerLogic.Entries | src/services/portScanner.ts:224-228 | one entry per result: listening iff online, else closed, always TCP |
| ScannerLogic.Percentage | src/services/portScanner.ts:209 | the progress percentage; its properties are PercentageRounds, PercentageBounds, PercentageMonotone and PercentageFull |
| ScannerLogic.PercentageRounds | src/services/portScanner.ts:209 | the percentage is 100·current/total rounded half up |
| ScannerLogic.PercentageBounds | src/services/portScanner.ts:209 | the percentage is within 0..100 |
| ScannerLogic.PercentageMonotone | src/services/portScanner.ts:209 | the percentage does not decrease as probes complete |
| ScannerLogic.PercentageFull | src/services/portScanner.ts:209 | the last report says 100 |
| ScannerLogic.ReportsFrom | src/services/portScanner.ts:202-213 | one report per probe, counting on from the probes already done |
| ScannerLogic.ReportsCountUp | src/services/portScanner.ts:202-213 | reports count 1, 2, … up by one each time, are complete iff current = total, and the last of a full scan says 100 % |
| ScannerLogic.Batches | src/services/portScanner.ts:189-195 | the consecutive `slice(i, i + maxConcurrent)` batches of a list; its properties are BatchesPartition and BatchAt |
| ScannerLogic.BatchesPartition | src/services/portScanner.ts:189-195 | the slices of size `maxConcurrent` are non-empty, all full but the last, and concatenate to the list |
| ScannerLogic.BatchAt | src/services/portScanner.ts:189-195 | slice k is the list from k·size to the end of the slice or the list |
| ScannerLogic.AddMissing | src/services/portScanner.ts:245-249 | push each port the list does not yet hold; its properties are AddMissingSpec and AddMissingAppendsAbsent |
| ScannerLogic.AddRanges | src/services/portScanner.ts:244-250 | `AddMissing` over each range in turn; its properties are AddRangesSpec |
| ScannerLogic.QuickScanPorts | src/services/portScanner.ts:241-250 | the quick-scan candidate list; its properties are QuickScanPortsSpec |
| ScannerLogic.AddMissingAppendsAbsent | src/services/portScanner.ts:245-249 | on a list without repeats, such as a range, the ports pushed are exactly those not already present, in the list's (ascending) order |
| ScannerLogic.AddMissingSpec | src/services/portScanner.ts:244-250 | appending the missing ports keeps the list as a prefix, adds exactly the new ports, and keeps a duplicate-free list duplicate-free |
| ScannerLogic.AddRangesSpec | src/services/portScanner.ts:244-250 | the candidates start with the common ports, hold exactly the common ports and the range ports, and have no duplicates when the common ports have none |
| ScannerLogic.QuickScanPortsSpec | src/services/portScanner.ts:241-250 | the quick-scan list starts with the common ports, holds exactly the common and default-range ports, and has no duplicates |
| PortScanning.AbortController.Abort | src/services/portScanner.ts:341 | the controller is aborted afterwards |
| PortScanning.ProbeBatch | src/services/portScanner.ts:197-218 | a batch gives the probe results and progress reports of its ports, in order |
| PortScanning.RangePorts | src/services/portScanner.ts:299-302 | the loop lists start..end ascending, nothing when start > end |
| PortScanning.BuildCandidates | src/services/portScanner.ts:241-250 | the loop builds exactly the quick-scan candidate list |
| PortScanning.ScannedCount | src/services/portScanner.ts:189-192 | no abort means every port is probed; never more than the list |
| PortScanning.ScanStops | src/services/portScanner.ts:189-192 | the scan stops at the first batch that finds the controller aborted, or after the last batch |
| PortScanning.PortScanner.constructor | src/services/portScanner.ts:22 | a new scanner has no controller |
| PortScanning.PortScanner.IsScanning | src/services/portScanner.ts:349-351 | `isScanning`: a controller is installed and not aborted; CancelScan and ScanPorts state it afterwards |
| PortScanning.PortScanner.CancelScan | src/services/portScanner.ts:339-344 | the installed controller is aborted and dropped; nothing is scanning afterwards |
| PortScanning.PortScanner.ScanPorts | src/services/portScanner.ts:172-235 | timeout 3000 and batch size 5 unless given; installs a fresh controller; probes consecutive slices of the list up to the abort; one entry per probed port in order, listening iff online; the progress of each probe; still scanning afterwards iff not aborted |
| PortScanning.PortScanner.QuickScan | src/services/portScanner.ts:240-289 | every result for the candidate list in order, online or not, with the 2000 ms timeout and one report per probe |
| PortScanning.PortScanner.ScanRange | src/services/portScanner.ts:294-334 | nothing under an aborted controller; otherwise every port start..end ascending with the 1500 ms timeout, and nothing when start > end |
| GlobalContext.DefaultSettings | src/context/GlobalContext.tsx:51-64 | `defaultSettings`, whose ranges lack 5173..5180 |
| GlobalContext.InitialState | src/context/GlobalContext.tsx:67-82 | `initialState`; ClearResetUnrecognised states that RESET_STATE returns it |
| GlobalContext.Reduce | src/context/GlobalContext.tsx:85-213 | `globalReducer`, one case per action; its properties are stated by the per-action lemmas below (SetPortsFrame, UpdatePortStatusFrame, ScanFlags, PlainSetters, SetThemeSyncs, UpdateSettingsPatches, TogglePortSelectionSpec, ToggleFavoriteSpec, ToggleAutoRefreshSyncs, ClearResetUnrecognised), which together cover all sixteen actions, and ReducePreservesNoDuplicates |
| GlobalContext.ApplyStatus | src/context/GlobalContext.tsx:97-99 | the status overwrites port, status and type, and time and error when present; the card's own fields stay |
| GlobalContext.Without | src/context/GlobalContext.tsx:168 | every occurrence of the value is removed and nothing else; a list without it is unchanged |
| GlobalContext.UpdateCards | src/context/GlobalContext.tsx:94-102 | same length; exactly the cards of the target port get the status |
| GlobalContext.MarkFavorite | src/context/GlobalContext.tsx:184-188 | same length; exactly the cards of the target port get the new favourite flag |
| GlobalContext.SetPortsFrame | src/context/GlobalContext.tsx:87-92 | the list is replaced and the scan time stamped; nothing else changes |
| GlobalContext.UpdatePortStatusFrame | src/context/GlobalContext.tsx:94-102 | length and order stay; only cards of the target port change, taking the status and keeping their favourite flag and name; no other field changes |
| GlobalContext.ScanFlags | src/context/GlobalContext.tsx:104-116 | starting a scan clears the error, stopping keeps it; reporting an error ends the scan |
| GlobalContext.PlainSetters | src/context/GlobalContext.tsx:118-195 | SET_LAST_SCAN_TIME, SET_VIEW_MODE, SET_SEARCH_QUERY, SET_SORT and SET_CONNECTION_STATUS overwrite exactly their own fields and keep all the others |
| GlobalContext.SetThemeSyncs | src/context/GlobalContext.tsx:124-132 | theme and settings theme get the same value; other settings stay |
| GlobalContext.UpdateSettingsPatches | src/context/GlobalContext.tsx:153-160 | each settings field takes the payload's value when present and keeps its own otherwise; nothing outside the settings changes |
| GlobalContext.WithoutAppend | src/context/GlobalContext.tsx:168 | filtering distributes over appending one element |
| GlobalContext.WithoutNoDuplicates | src/context/GlobalContext.tsx:168 | filtering keeps a duplicate-free list duplicate-free |
| GlobalContext.ToggleFlips | src/context/GlobalContext.tsx:162-169 | toggling flips membership of the value and of nothing else, appending an absent value at the end |
| GlobalContext.ToggleTwiceRestores | src/context/GlobalContext.tsx:162-169 | toggling an absent value twice restores the list |
| GlobalContext.ToggleNoDuplicates | src/context/GlobalContext.tsx:162-169 | toggling keeps a duplicate-free list duplicate-free |
| GlobalContext.TogglePortSelectionSpec | src/context/GlobalContext.tsx:162-169 | an absent port is appended, a present one has every occurrence removed, and toggling an absent port twice restores the state |
| GlobalContext.ToggleFavoriteSpec | src/context/GlobalContext.tsx:177-189 | membership in the favourites flips; exactly the matching cards get the new membership as their flag; nothing else changes |
| GlobalContext.ToggleAutoRefreshSyncs | src/context/GlobalContext.tsx:197-205 | the flag flips and the settings copy agrees with it afterwards; other settings stay |
| GlobalContext.ClearResetUnrecognised | src/context/GlobalContext.tsx:171-175 | clearing empties the selection only; reset gives the initial state; any other action changes nothing |
| GlobalContext.ReducePreservesNoDuplicates | src/context/GlobalContext.tsx:85-213 | no action puts a port twice into the selection or the favourites |

## Left out

- The network, timers and animation frames are left out: `fetch`, `setTimeout`, `AbortController` signals inside `testPort`, and `requestAnimationFrame`. Probe outcomes and elapsed times are inputs, and frames are explicit `Tick` calls.
- `animationId` and `cancelAnimationFrame` are left out, so `stop` only clears `isActive`.
- `setCallbacks` is left out: the callbacks are the events `Tick` and `Start` return.
- Concurrency inside a batch is left out: `Promise.all` completion order is not modelled, and batches run one port after the other.
- PortScanning.PortScanner.ScanPorts: the `abortBefore` input models the cooperative stop the code evidently intends, not the code as written. `cancelScan` (src/services/portScanner.ts:339-344) aborts the controller and nulls it in one synchronous step, so no scan ever sees an installed, aborted controller. After a real cancel the batch check at line 191 dereferences null and `scanPorts` throws a `TypeError`; the clean stop with partial results never happens.
- PortScanning.PortScanner.ScanPorts: requires `maxConcurrent > 0`. With 0 or a negative batch size the source loop at line 190 (`i += maxConcurrent`) never ends. Nothing in the program calls `scanPorts` with a batch size, so the default of 5 always applies.
- The per-port abort check inside a batch (src/services/portScanner.ts:197-199) is left out. Without concurrency, the flag cannot change between the batch check and the port check.
- PortScanning.PortScanner.ScanRange: the abort flag is read once; with sequential probing it cannot change during the loop. Its "nothing under an aborted controller" branch is never reached by the program: after `cancelScan` the check at line 309 (`this.abortController?.signal.aborted`) reads `undefined`, so a cancelled range scan runs to the end.
- Trigonometry and square roots are left out: the x/y of `calculatePortPosition`, `calculateDistance`, `calculateSweepLineCoordinates` and the cluster centres. Clustering takes the distance as an arbitrary function.
- `createSweepGradientConfig` is left out: it only builds colour stops for rendering.
- ScannerLogic.Percentage: the percentage is the exact round-half-up of 100·completed/total. The source computes `Math.round((completed / total) * 100)` in doubles, where some exact halves land just below one half for some totals that are multiples of 40: 23 of 40 gives 57 in JavaScript and 58 here, and 29 of 200 gives 14 there and 15 here. PercentageRounds describes the exact value.
- Floating point is not modelled: positions, radii, angles and fades are exact reals, so results that JavaScript would round are not rounded here.
- RadarSweep.CalculateSweepFade: requires a non-zero trail length or angles that differ. With a zero trail and coinciding angles the source computes 0/0 and returns NaN, which has no real counterpart; every other zero-trail input returns 0, as in the source.
- Config.GetPlatform: lower-casing covers ASCII letters only; JavaScript's full Unicode case mapping is not modelled.
- Timestamps (`lastChecked`, `new Date().toISOString()`) are left out: `SET_PORTS` takes the current time as a parameter.
- Response headers are not stored on results, and `console.log` calls are left out.
- `SERVICE_PATTERNS`, `SERVICE_TYPE_LABELS`, `DEFAULT_SCAN_SETTINGS`, `PORT_STATUS_COLORS` and `ANIMATION_DURATIONS` are left out: nothing in the modelled code reads them.
- `getPortColor` and `formatPort` are left out: they are display-only switches.
- The React provider and hooks of `src/context/GlobalContext.tsx` (lines 222-315) are left out: they only wire the reducer into components.
- `src/hooks/usePortScanner.ts` is not part of this model.
- The React components are not part of this model.
- `src/types/api.ts` is not part of this model.

=== FILE: common.dfy ===
/** Small value-level helpers shared by the TugBoat model: an optional value,
    the inclusive integer interval `lo..hi` that the source builds with
    `for (let p = lo; p <= hi; p++)` loops, duplicate-freedom, and the ASCII
    string operations (`toLowerCase`, `includes`) the classifiers use. */
module Common {

  datatype Option<+T> = None | Some(value: T)

  /** Taking one more element of `s` appends it. */
  lemma TakeSnoc<T>(s: seq<T>, n: int)
    requires 0 <= n < |s|
    ensures s[..n + 1] == s[..n] + [s[n]]
  {
  }

  /** A prefix followed by the next slice is the longer prefix. */
  lemma TakeConcat<T>(s: seq<T>, i: int, j: int)
    requires 0 <= i <= j <= |s|
    ensures s[..i] + s[i..j] == s[..j]
  {
  }

  /** The ports `lo, lo+1, ..., hi`; empty when `lo > hi`. */
  function Interval(lo: int, hi: int): (s: seq<int>)
    ensures |s| == if lo <= hi then hi - lo + 1 else 0
    ensures forall i :: 0 <= i < |s| ==> s[i] == lo + i
  {
    if lo <= hi then seq(hi - lo + 1, i => lo + i) else []
  }

  /** Appending `hi + 1` to the interval `lo..hi` gives `lo..hi+1`. */
  lemma IntervalSnoc(lo: int, hi: int)
    requires lo <= hi + 1
    ensures Interval(lo, hi + 1) == Interval(lo, hi) + [hi + 1]
  {
    var a, b := Interval(lo, hi + 1), Interval(lo, hi) + [hi + 1];
    assert |a| == |b|;
    forall i | 0 <= i < |a| ensures a[i] == b[i] {}
  }

  /** The interval `lo..hi` is `lo` followed by `lo+1..hi`. */
  lemma IntervalCons(lo: int, hi: int)
    requires lo <= hi
    ensures Interval(lo, hi) == [lo] + Interval(lo + 1, hi)
  {
    var a, b := Interval(lo, hi), [lo] + Interval(lo + 1, hi);
    assert |a| == |b|;
    forall i | 0 <= i < |a| ensures a[i] == b[i] {
      if i > 0 {
        assert b[i] == Interval(lo + 1, hi)[i - 1];
      }
    }
  }

  lemma IntervalMembers(lo: int, hi: int, x: int)
    ensures x in Interval(lo, hi) <==> lo <= x <= hi
  {
    if lo <= x <= hi {
      assert Interval(lo, hi)[x - lo] == x;
    }
  }

  /** No value occurs twice. */
  predicate NoDuplicates<T(==)>(s: seq<T>) {
    forall i, j :: 0 <= i < j < |s| ==> s[i] != s[j]
  }

  /** ASCII `String.prototype.toLowerCase`. */
  function LowerChar(c: char): (d: char)
    ensures 'A' <= c <= 'Z' ==> 'a' <= d <= 'z'
    ensures !('A' <= c <= 'Z') ==> d == c
  {
    if 'A' <= c <= 'Z' then (c as int - 'A' as int + 'a' as int) as char else c
  }

  function ToLower(s: string): (r: string)
    ensures |r| == |s|
    ensures forall i :: 0 <= i < |s| ==> r[i] == LowerChar(s[i])
  {
    seq(|s|, i requires 0 <= i < |s| => LowerChar(s[i]))
  }

  /** Lower-casing twice is lower-casing once. */
  lemma ToLowerIdempotent(s: string)
    ensures ToLower(ToLower(s)) == ToLower(s)
  {
    var a, b := ToLower(ToLower(s)), ToLower(s);
    forall i | 0 <= i < |s| ensures a[i] == b[i] {}
  }

  /** `String.prototype.includes`: `sub` occurs in `s` at some offset. */
  predicate Contains(s: string, sub: string)
    decreases |s|
  {
    sub <= s || (s != [] && Contains(s[1..], sub))
  }
}

=== FILE: config.dfy ===
/** `src/data/config.ts`: the constant tables the scanner consumes and the
    user-agent platform sniffing. */
module Config {
  import opened Common
  import opened PortTypes

  /** `DEFAULT_PORT_RANGES`: inclusive `[start, end]` pairs. */
  const DEFAULT_PORT_RANGES: seq<(int, int)> :=
    [(3000, 3010), (4000, 4010), (5000, 5010), (5173, 5180), (8000, 8010), (9000, 9010)]

  /** `COMMON_DEV_PORTS`, in source order. */
  const COMMON_DEV_PORTS: seq<int> :=
    [1313, 3000, 3001, 4000, 5000, 5173, 5174, 5175, 5176, 5177, 5178, 5179, 5180,
     7000, 8000, 8080, 8888, 9000]

  /** `MACOS_SYSTEM_PORTS`: the AirPlay receiver ports of macOS. */
  const MACOS_SYSTEM_PORTS: map<int, ServiceType> :=
    map[5000 := AirplayReceiver, 7000 := AirplayReceiver]

  /** The strings `getPlatform` returns. */
  datatype Platform =
    | Darwin           // "darwin"
    | Win32            // "win32"
    | Linux            // "linux"
    | UnknownPlatform  // "unknown"

  /** `getPlatform`. `userAgent` is `None` when there is no `navigator`.
      The tests run in order on the lower-cased user agent: "mac", then
      "win", then "linux". */
  function GetPlatform(userAgent: Option<string>): (p: Platform)
    ensures p == Darwin <==>
      userAgent.Some? && Contains(ToLower(userAgent.value), "mac")
    ensures p == Win32 <==>
      userAgent.Some? && !Contains(ToLower(userAgent.value), "mac")
      && Contains(ToLower(userAgent.value), "win")
    ensures p == Linux <==>
      userAgent.Some? && !Contains(ToLower(userAgent.value), "mac")
      && !Contains(ToLower(userAgent.value), "win") && Contains(ToLower(userAgent.value), "linux")
    ensures userAgent.None? ==> p == UnknownPlatform
  {
    match userAgent
    case None => UnknownPlatform
    case Some(ua) =>
      var lower := ToLower(ua);
      if Contains(lower, "mac") then Darwin
      else if Contains(lower, "win") then Win32
      else if Contains(lower, "linux") then Linux
      else UnknownPlatform
  }

  /** The sniffing ignores letter case: a user agent and its lower-cased
      form give the same platform. */
  lemma PlatformIgnoresCase(ua: string)
    ensures GetPlatform(Some(ToLower(ua))) == GetPlatform(Some(ua))
  {
    ToLowerIdempotent(ua);
  }

  /** `MACOS_SYSTEM_PORTS` is defined for exactly 5000 and 7000, both AirPlay. */
  lemma MacosSystemPortsTable()
    ensures MACOS_SYSTEM_PORTS.Keys == {5000, 7000}
    ensures forall p :: p in MACOS_SYSTEM_PORTS ==> MACOS_SYSTEM_PORTS[p] == AirplayReceiver
  {
  }

  /** Every default range is non-empty: its start is at most its end. */
  lemma DefaultRangesWellFormed()
    ensures forall i :: 0 <= i < |DEFAULT_PORT_RANGES| ==>
      DEFAULT_PORT_RANGES[i].0 <= DEFAULT_PORT_RANGES[i].1
  {
  }

  /** `COMMON_DEV_PORTS` lists no port twice (it is in fact strictly increasing). */
  lemma CommonDevPortsDistinct()
    ensures NoDuplicates(COMMON_DEV_PORTS)
  {
    assert forall i :: 0 <= i < |COMMON_DEV_PORTS| - 1 ==> COMMON_DEV_PORTS[i] < COMMON_DEV_PORTS[i + 1];
    StrictlyIncreasingDistinct(COMMON_DEV_PORTS);
  }

  lemma {:induction false} StrictlyIncreasingDistinct(s: seq<int>)
    requires forall i :: 0 <= i < |s| - 1 ==> s[i] < s[i + 1]
    ensures forall i, j :: 0 <= i < j < |s| ==> s[i] < s[j]
  {
    if |s| > 1 {
      StrictlyIncreasingDistinct(s[1..]);
      forall i, j | 0 <= i < j < |s| ensures s[i] < s[j] {
        if i > 0 {
          assert s[i] == s[1..][i - 1] && s[j] == s[1..][j - 1];
        } else if j > 1 {
          assert s[1] == s[1..][0] && s[j] == s[1..][j - 1];
        }
      }
    }
  }
}

=== FILE: global_context.dfy ===
/** `globalReducer` of `src/context/GlobalContext.tsx`: the application
    state and the pure transition function the React context dispatches
    to. `lastChecked` and `headers` of port records are not part of this
    model; the clock reading `SET_PORTS` stores is the parameter `now`. */
module GlobalContext {
  import opened Common
  import opened PortTypes

  /** `PortCardData`: a probe result with the card's own optional fields. An
      optional field is `None` when the record does not have it. */
  datatype PortCard = PortCard(
    port: int,
    status: Status,
    responseTime: Option<int>,
    serviceType: ServiceType,
    error: Option<string>,
    isFavorite: Option<bool>,
    customName: Option<string>,
    isVisible: Option<bool>)

  datatype ViewMode = Grid | ListView | Compact
  datatype SortOrder = Asc | Desc

  /** `GlobalState`. `sortBy` is a string: `SET_SORT` stores its payload
      with an `as any` cast, so any string can end up there. */
  datatype GlobalState = GlobalState(
    ports: seq<PortCard>,
    isScanning: bool,
    lastScanTime: Option<string>,
    scanError: Option<string>,
    theme: Theme,
    viewMode: ViewMode,
    searchQuery: string,
    sortBy: string,
    sortOrder: SortOrder,
    settings: ScanSettings,
    selectedPorts: seq<int>,
    favoritePorts: seq<int>,
    isConnected: bool,
    autoRefreshEnabled: bool)

  /** `Partial<ScanSettings>`: the fields an `UPDATE_SETTINGS` payload has. */
  datatype SettingsPatch = SettingsPatch(
    autoRefresh: Option<bool>,
    refreshInterval: Option<int>,
    defaultPortRanges: Option<seq<(int, int)>>,
    excludedPorts: Option<seq<int>>,
    enableNotifications: Option<bool>,
    theme: Option<Theme>)

  /** `GlobalAction`, plus any action of another type. */
  datatype Action =
    | SetPorts(cards: seq<PortCard>)
    | UpdatePortStatus(target: int, newStatus: ServiceStatus)
    | SetScanning(scanning: bool)
    | SetScanError(scanErrorPayload: Option<string>)
    | SetLastScanTime(time: string)
    | SetTheme(newTheme: Theme)
    | SetViewMode(mode: ViewMode)
    | SetSearchQuery(query: string)
    | SetSort(sortByPayload: string, order: SortOrder)
    | UpdateSettings(patch: SettingsPatch)
    | TogglePortSelection(selectPort: int)
    | ClearSelection
    | ToggleFavorite(favoritePort: int)
    | SetConnectionStatus(connected: bool)
    | ToggleAutoRefresh
    | ResetState
    | Unrecognised

  /** `defaultSettings`. Its ranges are not `DEFAULT_PORT_RANGES`: the Vite
      range 5173..5180 is missing. */
  function DefaultSettings(): ScanSettings {
    ScanSettings(true, 30, [(3000, 3010), (4000, 4010), (5000, 5010), (8000, 8010), (9000, 9010)], [], true, Dark)
  }

  /** `initialState`. */
  function InitialState(): GlobalState {
    GlobalState([], false, None, None, Dark, Grid, "", "port", Asc, DefaultSettings(), [], [], false, true)
  }

  /** `{ ...card, ...status }`: every field the status has overwrites the
      card's; an optional field the status lacks keeps the card's value. */
  function ApplyStatus(card: PortCard, s: ServiceStatus): (r: PortCard)
    ensures r.port == s.port && r.status == s.status && r.serviceType == s.serviceType
    ensures r.responseTime == (if s.responseTime.Some? then s.responseTime else card.responseTime)
    ensures r.error == (if s.error.Some? then s.error else card.error)
    ensures r.isFavorite == card.isFavorite && r.customName == card.customName && r.isVisible == card.isVisible
  {
    card.(port := s.port, status := s.status,
          responseTime := if s.responseTime.Some? then s.responseTime else card.responseTime,
          serviceType := s.serviceType,
          error := if s.error.Some? then s.error else card.error)
  }

  /** `{ ...settings, ...patch }`. */
  function ApplyPatch(settings: ScanSettings, p: SettingsPatch): ScanSettings {
    ScanSettings(
      if p.autoRefresh.Some? then p.autoRefresh.value else settings.autoRefresh,
      if p.refreshInterval.Some? then p.refreshInterval.value else settings.refreshInterval,
      if p.defaultPortRanges.Some? then p.defaultPortRanges.value else settings.defaultPortRanges,
      if p.excludedPorts.Some? then p.excludedPorts.value else settings.excludedPorts,
      if p.enableNotifications.Some? then p.enableNotifications.value else settings.enableNotifications,
      if p.theme.Some? then p.theme.value else settings.theme)
  }

  /** `s.filter(x => x !== v)`: every occurrence of `v` removed, the rest
      kept in order. */
  function Without(s: seq<int>, v: int): (r: seq<int>)
    ensures |r| <= |s|
    ensures forall x :: x in r <==> x in s && x != v
    ensures v !in s ==> r == s
  {
    if s == [] then []
    else if s[0] == v then Without(s[1..], v)
    else [s[0]] + Without(s[1..], v)
  }

  /** `ports.map(...)` of `UPDATE_PORT_STATUS`. */
  function UpdateCards(cards: seq<PortCard>, target: int, s: ServiceStatus): (r: seq<PortCard>)
    ensures |r| == |cards|
    ensures forall i :: 0 <= i < |cards| ==>
      r[i] == (if cards[i].port == target then ApplyStatus(cards[i], s) else cards[i])
  {
    seq(|cards|, i requires 0 <= i < |cards| =>
      if cards[i].port == target then ApplyStatus(cards[i], s) else cards[i])
  }

  /** `ports.map(...)` of `TOGGLE_FAVORITE`. */
  function MarkFavorite(cards: seq<PortCard>, target: int, favorite: bool): (r: seq<PortCard>)
    ensures |r| == |cards|
    ensures forall i :: 0 <= i < |cards| ==>
      r[i] == (if cards[i].port == target then cards[i].(isFavorite := Some(favorite)) else cards[i])
  {
    seq(|cards|, i requires 0 <= i < |cards| =>
      if cards[i].port == target then cards[i].(isFavorite := Some(favorite)) else cards[i])
  }

  /** `includes` then `filter` or append: the toggle of a number list. */
  function Toggle(s: seq<int>, v: int): seq<int> {
    if v in s then Without(s, v) else s + [v]
  }

  /** `globalReducer(state, action)`, with `now` the time `SET_PORTS` reads. */
  function Reduce(state: GlobalState, action: Action, now: string): GlobalState {
    match action
    case SetPorts(cards) => state.(ports := cards, lastScanTime := Some(now))
    case UpdatePortStatus(target, s) => state.(ports := UpdateCards(state.ports, target, s))
    case SetScanning(scanning) =>
      state.(isScanning := scanning, scanError := if scanning then None else state.scanError)
    case SetScanError(e) => state.(scanError := e, isScanning := false)
    case SetLastScanTime(t) => state.(lastScanTime := Some(t))
    case SetTheme(t) => state.(theme := t, settings := state.settings.(theme := t))
    case SetViewMode(m) => state.(viewMode := m)
    case SetSearchQuery(q) => state.(searchQuery := q)
    case SetSort(key, order) => state.(sortBy := key, sortOrder := order)
    case UpdateSettings(p) => state.(settings := ApplyPatch(state.settings, p))
    case TogglePortSelection(p) => state.(selectedPorts := Toggle(state.selectedPorts, p))
    case ClearSelection => state.(selectedPorts := [])
    case ToggleFavorite(p) =>
      var wasFavorite := p in state.favoritePorts;
      state.(favoritePorts := Toggle(state.favoritePorts, p),
             ports := MarkFavorite(state.ports, p, !wasFavorite))
    case SetConnectionStatus(c) => state.(isConnected := c)
    case ToggleAutoRefresh =>
      state.(autoRefreshEnabled := !state.autoRefreshEnabled,
             settings := state.settings.(autoRefresh := !state.autoRefreshEnabled))
    case ResetState => InitialState()
    case Unrecognised => state
  }

  /** `SET_PORTS` replaces the list wholesale and stamps the scan time;
      nothing else changes. */
  lemma SetPortsFrame(state: GlobalState, cards: seq<PortCard>, now: string)
    ensures var r := Reduce(state, SetPorts(cards), now);
      r.ports == cards && r.lastScanTime == Some(now)
      && r.(ports := state.ports, lastScanTime := state.lastScanTime) == state
  {
  }

  /** `UPDATE_PORT_STATUS` keeps the list's length and order, applies the
      status to exactly the cards of the target port, keeps their
      favourite flag, name and visibility, and changes no other field. */
  lemma UpdatePortStatusFrame(state: GlobalState, target: int, s: ServiceStatus, now: string)
    ensures var r := Reduce(state, UpdatePortStatus(target, s), now);
      |r.ports| == |state.ports|
      && (forall i :: 0 <= i < |state.ports| && state.ports[i].port != target ==> r.ports[i] == state.ports[i])
      && (forall i :: 0 <= i < |state.ports| && state.ports[i].port == target ==>
            r.ports[i].status == s.status && r.ports[i].serviceType == s.serviceType
            && r.ports[i].isFavorite == state.ports[i].isFavorite
            && r.ports[i].customName == state.ports[i].customName)
      && r.(ports := state.ports) == state
  {
  }

  /** `SET_SCANNING(true)` clears the error, `SET_SCANNING(false)` keeps it;
      `SET_SCAN_ERROR` always ends the scan. */
  lemma ScanFlags(state: GlobalState, e: Option<string>, now: string)
    ensures Reduce(state, SetScanning(true), now).isScanning
      && Reduce(state, SetScanning(true), now).scanError.None?
    ensures !Reduce(state, SetScanning(false), now).isScanning
      && Reduce(state, SetScanning(false), now).scanError == state.scanError
    ensures !Reduce(state, SetScanError(e), now).isScanning
      && Reduce(state, SetScanError(e), now).scanError == e
  {
  }

  /** The plain setters `SET_LAST_SCAN_TIME`, `SET_VIEW_MODE`,
      `SET_SEARCH_QUERY`, `SET_SORT` and `SET_CONNECTION_STATUS` each
      overwrite their own fields and keep every other one. */
  lemma PlainSetters(state: GlobalState, t: string, m: ViewMode, q: string, key: string,
                     order: SortOrder, c: bool, now: string)
    ensures Reduce(state, SetLastScanTime(t), now) == state.(lastScanTime := Some(t))
    ensures Reduce(state, SetViewMode(m), now) == state.(viewMode := m)
    ensures Reduce(state, SetSearchQuery(q), now) == state.(searchQuery := q)
    ensures Reduce(state, SetSort(key, order), now) == state.(sortBy := key, sortOrder := order)
    ensures Reduce(state, SetConnectionStatus(c), now) == state.(isConnected := c)
  {
  }

  /** `SET_THEME` sets the theme and the settings' theme to the same value,
      leaving the other settings alone. */
  lemma SetThemeSyncs(state: GlobalState, t: Theme, now: string)
    ensures var r := Reduce(state, SetTheme(t), now);
      r.theme == t && r.settings.theme == t
      && r.settings.(theme := state.settings.theme) == state.settings
  {
  }

  /** `UPDATE_SETTINGS` overwrites exactly the settings fields present in the
      payload; an empty payload changes nothing. */
  lemma UpdateSettingsPatches(state: GlobalState, p: SettingsPatch, now: string)
    ensures var r := Reduce(state, UpdateSettings(p), now).settings;
      (p.autoRefresh.Some? ==> r.autoRefresh == p.autoRefresh.value)
      && (p.autoRefresh.None? ==> r.autoRefresh == state.settings.autoRefresh)
      && (p.refreshInterval.Some? ==> r.refreshInterval == p.refreshInterval.value)
      && (p.refreshInterval.None? ==> r.refreshInterval == state.settings.refreshInterval)
      && (p.defaultPortRanges.Some? ==> r.defaultPortRanges == p.defaultPortRanges.value)
      && (p.defaultPortRanges.None? ==> r.defaultPortRanges == state.settings.defaultPortRanges)
      && (p.excludedPorts.Some? ==> r.excludedPorts == p.excludedPorts.value)
      && (p.excludedPorts.None? ==> r.excludedPorts == state.settings.excludedPorts)
      && (p.enableNotifications.Some? ==> r.enableNotifications == p.enableNotifications.value)
      && (p.enableNotifications.None? ==> r.enableNotifications == state.settings.enableNotifications)
      && (p.theme.Some? ==> r.theme == p.theme.value)
      && (p.theme.None? ==> r.theme == state.settings.theme)
    ensures p == SettingsPatch(None, None, None, None, None, None) ==>
      Reduce(state, UpdateSettings(p), now) == state
    ensures Reduce(state, UpdateSettings(p), now).(settings := state.settings) == state
  {
  }

  /** `filter` keeps the other elements in their order: removing `v` from
      `s + [v]` gives `s` back when `s` has no `v`, and removing commutes
      with appending another element. */
  lemma {:induction false} WithoutAppend(s: seq<int>, v: int, x: int)
    ensures Without(s + [x], v) == if x == v then Without(s, v) else Without(s, v) + [x]
  {
    if s == [] {
      assert [x][1..] == [];
    } else {
      assert (s + [x])[0] == s[0] && (s + [x])[1..] == s[1..] + [x];
      WithoutAppend(s[1..], v, x);
    }
  }

  /** Removing every occurrence keeps a duplicate-free list duplicate-free. */
  lemma {:induction false} WithoutNoDuplicates(s: seq<int>, v: int)
    requires NoDuplicates(s)
    ensures NoDuplicates(Without(s, v))
  {
    if s != [] {
      assert NoDuplicates(s[1..]) by {
        forall i, j | 0 <= i < j < |s[1..]| ensures s[1..][i] != s[1..][j] {
          assert s[1..][i] == s[i + 1] && s[1..][j] == s[j + 1];
        }
      }
      WithoutNoDuplicates(s[1..], v);
      if s[0] != v {
        assert s[0] !in s[1..] by {
          forall k | 0 <= k < |s[1..]| ensures s[1..][k] != s[0] {
            assert s[1..][k] == s[k + 1];
          }
        }
        var r := [s[0]] + Without(s[1..], v);
        forall i, j | 0 <= i < j < |r| ensures r[i] != r[j] {
          if i == 0 {
            assert r[j] == Without(s[1..], v)[j - 1];
            assert r[j] in Without(s[1..], v);
          } else {
            assert r[i] == Without(s[1..], v)[i - 1] && r[j] == Without(s[1..], v)[j - 1];
          }
        }
      }
    }
  }

  /** Toggling flips membership of `v` and of nothing else: an absent value
      is appended at the end, a present one has every occurrence removed. */
  lemma ToggleFlips(s: seq<int>, v: int)
    ensures v in Toggle(s, v) <==> v !in s
    ensures forall x :: x != v ==> (x in Toggle(s, v) <==> x in s)
    ensures v !in s ==> Toggle(s, v) == s + [v]
  {
  }

  /** Toggling an absent value twice restores the list. */
  lemma {:induction false} ToggleTwiceRestores(s: seq<int>, v: int)
    requires v !in s
    ensures Toggle(Toggle(s, v), v) == s
  {
    WithoutAppend(s, v, v);
  }

  /** Toggling keeps a duplicate-free list duplicate-free. */
  lemma ToggleNoDuplicates(s: seq<int>, v: int)
    requires NoDuplicates(s)
    ensures NoDuplicates(Toggle(s, v))
  {
    if v in s {
      WithoutNoDuplicates(s, v);
    } else {
      var r := s + [v];
      forall i, j | 0 <= i < j < |r| ensures r[i] != r[j] {
        if j == |s| {
          assert r[i] == s[i] && r[i] in s;
        }
      }
    }
  }

  /** `TOGGLE_PORT_SELECTION` flips the port's selection, and toggling a
      port that was not selected twice gives the selection back. */
  lemma TogglePortSelectionSpec(state: GlobalState, p: int, now: string)
    ensures var r := Reduce(state, TogglePortSelection(p), now);
      (p in r.selectedPorts <==> p !in state.selectedPorts)
      && (p !in state.selectedPorts ==> r.selectedPorts == state.selectedPorts + [p])
      && (p in state.selectedPorts ==> r.selectedPorts == Without(state.selectedPorts, p))
      && r.(selectedPorts := state.selectedPorts) == state
    ensures p !in state.selectedPorts ==>
      Reduce(Reduce(state, TogglePortSelection(p), now), TogglePortSelection(p), now) == state
  {
    ToggleFlips(state.selectedPorts, p);
    if p !in state.selectedPorts {
      ToggleTwiceRestores(state.selectedPorts, p);
    }
  }

  /** `TOGGLE_FAVORITE` flips the port's membership of the favourites and
      marks exactly the cards of that port with the new membership. */
  lemma ToggleFavoriteSpec(state: GlobalState, p: int, now: string)
    ensures var r := Reduce(state, ToggleFavorite(p), now);
      (p in r.favoritePorts <==> p !in state.favoritePorts)
      && (forall x :: x != p ==> (x in r.favoritePorts <==> x in state.favoritePorts))
      && |r.ports| == |state.ports|
      && (forall i :: 0 <= i < |r.ports| && state.ports[i].port == p ==>
            r.ports[i].isFavorite == Some(p in r.favoritePorts)
            && r.ports[i].(isFavorite := state.ports[i].isFavorite) == state.ports[i])
      && (forall i :: 0 <= i < |r.ports| && state.ports[i].port != p ==> r.ports[i] == state.ports[i])
      && r.(favoritePorts := state.favoritePorts, ports := state.ports) == state
  {
    ToggleFlips(state.favoritePorts, p);
  }

  /** `TOGGLE_AUTO_REFRESH` flips the flag and copies the new value into the
      settings, so the two agree afterwards whatever they were before. */
  lemma ToggleAutoRefreshSyncs(state: GlobalState, now: string)
    ensures var r := Reduce(state, ToggleAutoRefresh, now);
      r.autoRefreshEnabled == !state.autoRefreshEnabled
      && r.settings.autoRefresh == r.autoRefreshEnabled
      && r.settings.(autoRefresh := state.settings.autoRefresh) == state.settings
  {
  }

  /** `CLEAR_SELECTION` empties the selection, `RESET_STATE` gives the
      initial state, and an unrecognised action changes nothing. */
  lemma ClearResetUnrecognised(state: GlobalState, now: string)
    ensures Reduce(state, ClearSelection, now) == state.(selectedPorts := [])
    ensures Reduce(state, ResetState, now) == InitialState()
    ensures Reduce(state, Unrecognised, now) == state
  {
  }

  /** No action puts a port twice into the selection or the favourites. */
  lemma ReducePreservesNoDuplicates(state: GlobalState, action: Action, now: string)
    requires NoDuplicates(state.selectedPorts) && NoDuplicates(state.favoritePorts)
    ensures NoDuplicates(Reduce(state, action, now).selectedPorts)
    ensures NoDuplicates(Reduce(state, action, now).favoritePorts)
  {
    match action
    case TogglePortSelection(p) => ToggleNoDuplicates(state.selectedPorts, p);
    case ToggleFavorite(p) => ToggleNoDuplicates(state.favoritePorts, p);
    case _ =>
  }
}

=== FILE: port_clustering.dfy ===
/** `clusterPorts` from `src/utils/util.ts`: greedy single-pass proximity
    clustering of the ports shown on the radar. The pixel distance between
    two ports' radar positions is left uninterpreted (`distance`), since the
    guarantees below hold for any distance; the clusters' centre points
    (averages of cosine/sine positions) are not part of this model. */
module PortClustering {

  /** `PortCluster` without `centerX`/`centerY`. */
  datatype Cluster = Cluster(ports: seq<int>, isCluster: bool)

  function Members(c: Cluster): set<int> {
    set x | x in c.ports
  }

  /** The ports held by a list of clusters. */
  function Covered(cs: seq<Cluster>): set<int> {
    if cs == [] then {} else Covered(cs[..|cs| - 1]) + Members(cs[|cs| - 1])
  }

  predicate SortedAsc(s: seq<int>) {
    forall i, j :: 0 <= i < j < |s| ==> s[i] <= s[j]
  }

  /** Every value occurs at most once. */
  ghost predicate Distinct(s: seq<int>) {
    forall x :: multiset(s)[x] <= 1
  }

  lemma SortedCons(a: int, t: seq<int>)
    requires SortedAsc(t)
    requires forall y :: y in t ==> a <= y
    ensures SortedAsc([a] + t)
  {
    var u := [a] + t;
    forall i, j | 0 <= i < j < |u| ensures u[i] <= u[j] {
      assert u[j] == t[j - 1] && t[j - 1] in t;
      if i > 0 { assert u[i] == t[i - 1]; }
    }
  }

  /** Insertion into an ascending list. */
  function Insert(x: int, s: seq<int>): (r: seq<int>)
    requires SortedAsc(s)
    ensures SortedAsc(r)
    ensures multiset(r) == multiset(s) + multiset{x}
    ensures forall y :: y in r <==> y == x || y in s
  {
    if s == [] then [x]
    else if x <= s[0] then
      assert forall y :: y in s ==> x <= y;
      SortedCons(x, s);
      [x] + s
    else
      assert s == [s[0]] + s[1..];
      assert SortedAsc(s[1..]);
      var rest := Insert(x, s[1..]);
      assert forall y :: y in s[1..] ==> s[0] <= y;
      SortedCons(s[0], rest);
      [s[0]] + rest
  }

  /** `Array.prototype.sort((a, b) => a - b)`: an ascending permutation. */
  function SortAscending(s: seq<int>): (r: seq<int>)
    ensures SortedAsc(r)
    ensures multiset(r) == multiset(s)
  {
    if s == [] then []
    else
      assert s == [s[0]] + s[1..];
      Insert(s[0], SortAscending(s[1..]))
  }

  lemma CoveredSnoc(cs: seq<Cluster>, c: Cluster)
    ensures Covered(cs + [c]) == Covered(cs) + Members(c)
    ensures forall k :: 0 <= k <= |cs| ==> (cs + [c])[..k] == cs[..k]
  {
    assert (cs + [c])[..|cs|] == cs;
  }

  /** The inner loop of `clusterPorts`: starting from the seed, walk the
      whole input and take every port not yet processed whose distance to the
      seed is within the threshold. Returns the cluster's ports, seed first,
      and the grown `processed` set. */
  method GatherNear(ports: seq<int>, seed: int, before: set<int>, distance: (int, int) -> real, threshold: real)
    returns (members: seq<int>, processed: set<int>)
    requires seed !in before
    ensures |members| >= 1 && members[0] == seed
    ensures processed == before + set x | x in members
    ensures Distinct(members)
    ensures forall x :: x in members && x != seed ==> x in ports && x !in before
    ensures forall x :: x in members && x != seed ==> distance(seed, x) <= threshold
    ensures forall j :: 0 <= j < |ports| && ports[j] !in before && distance(seed, ports[j]) <= threshold ==>
      ports[j] in members
  {
    members := [seed];
    processed := before + {seed};
    var j := 0;
    while j < |ports|
      invariant 0 <= j <= |ports|
      invariant |members| >= 1 && members[0] == seed
      invariant processed == before + set x | x in members
      invariant Distinct(members)
      invariant forall x :: x in members && x != seed ==> x in ports && x !in before
      invariant forall x :: x in members && x != seed ==> distance(seed, x) <= threshold
      invariant forall j' :: 0 <= j' < j && ports[j'] !in before && distance(seed, ports[j']) <= threshold ==>
        ports[j'] in members
    {
      var other := ports[j];
      if other !in processed {
        if distance(seed, other) <= threshold {
          members := members + [other];
          processed := processed + {other};
        }
      }
      j := j + 1;
    }
  }

  lemma {:induction false} MembersCovered(cs: seq<Cluster>, k: int)
    requires 0 <= k < |cs|
    ensures Members(cs[k]) <= Covered(cs)
  {
    if k < |cs| - 1 {
      MembersCovered(cs[..|cs| - 1], k);
    }
  }

  /** Clusters `k < l` share no port, and no cluster lists a port twice. */
  ghost predicate Partitioned(clusters: seq<Cluster>) {
    && (forall k, l :: 0 <= k < l < |clusters| ==> Members(clusters[k]) !! Members(clusters[l]))
    && (forall k :: 0 <= k < |clusters| ==> Distinct(clusters[k].ports))
  }

  /** Each cluster is sorted and flagged `isCluster` iff it has more than one port. */
  ghost predicate WellShaped(clusters: seq<Cluster>) {
    forall k :: 0 <= k < |clusters| ==>
      SortedAsc(clusters[k].ports) && (clusters[k].isCluster <==> |clusters[k].ports| > 1)
  }

  /** Cluster k holds its seed `ports[seedAt[k]]`, and every other port in it is
      within the threshold of that seed. */
  ghost predicate SeededNear(ports: seq<int>, distance: (int, int) -> real, threshold: real,
                             clusters: seq<Cluster>, seedAt: seq<nat>) {
    && |seedAt| == |clusters|
    && (forall k :: 0 <= k < |clusters| ==> seedAt[k] < |ports| && ports[seedAt[k]] in clusters[k].ports)
    && (forall k, x :: 0 <= k < |clusters| && x in clusters[k].ports && x != ports[seedAt[k]] ==>
          distance(ports[seedAt[k]], x) <= threshold)
  }

  /** Greedy: a cluster takes every input port near its seed that no earlier
      cluster took. */
  ghost predicate Maximal(ports: seq<int>, distance: (int, int) -> real, threshold: real,
                          clusters: seq<Cluster>, seedAt: seq<nat>)
    requires SeededNear(ports, distance, threshold, clusters, seedAt)
  {
    forall k, j ::
      (0 <= k < |clusters| && 0 <= j < |ports| && ports[j] !in Covered(clusters[..k])
       && distance(ports[seedAt[k]], ports[j]) <= threshold) ==> ports[j] in clusters[k].ports
  }

  /** Seeds come in input order, and every port before a seed belongs to an
      earlier cluster: each seed is the first port not yet clustered. */
  ghost predicate FirstSeedOrder(ports: seq<int>, clusters: seq<Cluster>, seedAt: seq<nat>)
    requires |seedAt| == |clusters|
  {
    && (forall k, l :: 0 <= k < l < |clusters| ==> seedAt[k] < seedAt[l])
    && (forall k, j :: 0 <= k < |clusters| && 0 <= j < seedAt[k] && j < |ports| ==>
          ports[j] in Covered(clusters[..k]))
  }

  ghost predicate Greedy(ports: seq<int>, distance: (int, int) -> real, threshold: real,
                         clusters: seq<Cluster>, seedAt: seq<nat>) {
    && Partitioned(clusters)
    && WellShaped(clusters)
    && SeededNear(ports, distance, threshold, clusters, seedAt)
    && Maximal(ports, distance, threshold, clusters, seedAt)
    && FirstSeedOrder(ports, clusters, seedAt)
  }

  /** The sorted cluster built from `members` keeps exactly their ports. */
  lemma SortedClusterKeepsPorts(members: seq<int>)
    ensures var sorted := SortAscending(members);
      |sorted| == |members| && (forall x :: x in sorted <==> x in members)
  {
    var sorted := SortAscending(members);
    assert |multiset(sorted)| == |multiset(members)|;
    forall x ensures x in sorted <==> x in members {
      assert x in sorted <==> x in multiset(sorted);
      assert x in members <==> x in multiset(members);
    }
  }

  /** The facts about one new cluster that the outer loop of `clusterPorts`
      establishes before appending it (seed at input index `i`). */
  ghost predicate NewCluster(ports: seq<int>, distance: (int, int) -> real, threshold: real,
                             clusters: seq<Cluster>, i: nat, members: seq<int>, cluster: Cluster) {
    && i < |ports|
    && (forall j :: 0 <= j < i ==> ports[j] in Covered(clusters))
    && ports[i] !in Covered(clusters)
    && |members| >= 1 && members[0] == ports[i] && Distinct(members)
    && (forall x :: x in members && x != ports[i] ==> x !in Covered(clusters))
    && (forall x :: x in members && x != ports[i] ==> distance(ports[i], x) <= threshold)
    && (forall j :: (0 <= j < |ports| && ports[j] !in Covered(clusters)
          && distance(ports[i], ports[j]) <= threshold) ==> ports[j] in members)
    && cluster == Cluster(SortAscending(members), |members| > 1)
  }

  lemma StepPartitioned(ports: seq<int>, distance: (int, int) -> real, threshold: real,
                        clusters: seq<Cluster>, i: nat, members: seq<int>, cluster: Cluster)
    requires Partitioned(clusters)
    requires NewCluster(ports, distance, threshold, clusters, i, members, cluster)
    ensures Partitioned(clusters + [cluster])
  {
    NewClusterFresh(ports, distance, threshold, clusters, i, members, cluster);
    PartitionedSnoc(clusters, cluster);
  }

  /** A new cluster lists no port twice and takes no port already covered. */
  lemma NewClusterFresh(ports: seq<int>, distance: (int, int) -> real, threshold: real,
                        clusters: seq<Cluster>, i: nat, members: seq<int>, cluster: Cluster)
    requires NewCluster(ports, distance, threshold, clusters, i, members, cluster)
    ensures Members(cluster) !! Covered(clusters) && Distinct(cluster.ports)
  {
    SortedClusterKeepsPorts(members);
    assert Members(cluster) == set x | x in members;
    assert multiset(cluster.ports) == multiset(members);
  }

  /** Appending a duplicate-free cluster disjoint from the covered ports
      keeps the clusters a partition. */
  lemma PartitionedSnoc(clusters: seq<Cluster>, cluster: Cluster)
    requires Partitioned(clusters)
    requires Members(cluster) !! Covered(clusters) && Distinct(cluster.ports)
    ensures Partitioned(clusters + [cluster])
  {
    var cs, n := clusters + [cluster], |clusters|;
    forall k, l | 0 <= k < l < |cs| ensures Members(cs[k]) !! Members(cs[l]) {
      assert cs[k] == clusters[k];
      if l < n {
        assert cs[l] == clusters[l];
      } else {
        MembersCovered(clusters, k);
      }
    }
    forall k | 0 <= k < |cs| ensures Distinct(cs[k].ports) {
      if k < n {
        assert cs[k] == clusters[k];
      }
    }
  }

  lemma StepShaped(ports: seq<int>, distance: (int, int) -> real, threshold: real,
                   clusters: seq<Cluster>, i: nat, members: seq<int>, cluster: Cluster)
    requires WellShaped(clusters)
    requires NewCluster(ports, distance, threshold, clusters, i, members, cluster)
    ensures WellShaped(clusters + [cluster])
  {
    SortedClusterKeepsPorts(members);
  }

  lemma StepSeeded(ports: seq<int>, distance: (int, int) -> real, threshold: real,
                   clusters: seq<Cluster>, seedAt: seq<nat>, i: nat, members: seq<int>, cluster: Cluster)
    requires SeededNear(ports, distance, threshold, clusters, seedAt)
    requires NewCluster(ports, distance, threshold, clusters, i, members, cluster)
    ensures SeededNear(ports, distance, threshold, clusters + [cluster], seedAt + [i])
  {
    SortedClusterKeepsPorts(members);
    assert ports[i] in cluster.ports;
    SeededSnoc(ports, distance, threshold, clusters, seedAt, i, cluster);
  }

  /** Appending a cluster that holds `ports[i]` and only ports near it,
      seeded at `i`, keeps every cluster seeded. */
  lemma SeededSnoc(ports: seq<int>, distance: (int, int) -> real, threshold: real,
                   clusters: seq<Cluster>, seedAt: seq<nat>, i: nat, cluster: Cluster)
    requires SeededNear(ports, distance, threshold, clusters, seedAt)
    requires i < |ports| && ports[i] in cluster.ports
    requires forall x :: x in cluster.ports && x != ports[i] ==> distance(ports[i], x) <= threshold
    ensures SeededNear(ports, distance, threshold, clusters + [cluster], seedAt + [i])
  {
    var cs, sa, n := clusters + [cluster], seedAt + [i], |clusters|;
    assert forall k :: 0 <= k < n ==> cs[k] == clusters[k] && sa[k] == seedAt[k];
    assert cs[n] == cluster && sa[n] == i;
  }

  lemma StepMaximal(ports: seq<int>, distance: (int, int) -> real, threshold: real,
                    clusters: seq<Cluster>, seedAt: seq<nat>, i: nat, members: seq<int>, cluster: Cluster)
    requires SeededNear(ports, distance, threshold, clusters, seedAt)
    requires Maximal(ports, distance, threshold, clusters, seedAt)
    requires NewCluster(ports, distance, threshold, clusters, i, members, cluster)
    ensures SeededNear(ports, distance, threshold, clusters + [cluster], seedAt + [i])
    ensures Maximal(ports, distance, threshold, clusters + [cluster], seedAt + [i])
  {
    StepSeeded(ports, distance, threshold, clusters, seedAt, i, members, cluster);
    SortedClusterKeepsPorts(members);
    var cs, sa, n := clusters + [cluster], seedAt + [i], |clusters|;
    CoveredSnoc(clusters, cluster);
    forall k, j | 0 <= k < |cs| && 0 <= j < |ports| && ports[j] !in Covered(cs[..k])
        && distance(ports[sa[k]], ports[j]) <= threshold
      ensures ports[j] in cs[k].ports
    {
      if k < n {
        assert cs[..k] == clusters[..k] && cs[k] == clusters[k] && sa[k] == seedAt[k];
      } else {
        assert cs[..k] == clusters;
      }
    }
  }

  lemma StepOrder(ports: seq<int>, distance: (int, int) -> real, threshold: real,
                  clusters: seq<Cluster>, seedAt: seq<nat>, i: nat, members: seq<int>, cluster: Cluster)
    requires |seedAt| == |clusters|
    requires FirstSeedOrder(ports, clusters, seedAt)
    requires forall k :: 0 <= k < |seedAt| ==> seedAt[k] < i
    requires NewCluster(ports, distance, threshold, clusters, i, members, cluster)
    ensures FirstSeedOrder(ports, clusters + [cluster], seedAt + [i])
  {
    var cs, sa, n := clusters + [cluster], seedAt + [i], |clusters|;
    CoveredSnoc(clusters, cluster);
    forall k, j | 0 <= k < |cs| && 0 <= j < sa[k] && j < |ports| ensures ports[j] in Covered(cs[..k]) {
      if k < n {
        assert cs[..k] == clusters[..k] && sa[k] == seedAt[k];
      } else {
        assert cs[..k] == clusters;
      }
    }
  }

  /** The outer loop's invariant after the first `i` input ports. */
  ghost predicate LoopInv(ports: seq<int>, distance: (int, int) -> real, threshold: real,
                          i: int, processed: set<int>, clusters: seq<Cluster>, seedAt: seq<nat>) {
    && 0 <= i <= |ports|
    && processed == Covered(clusters) && processed <= (set x | x in ports)
    && (forall j :: 0 <= j < i ==> ports[j] in processed)
    && (forall k :: 0 <= k < |seedAt| ==> seedAt[k] < i)
    && Greedy(ports, distance, threshold, clusters, seedAt)
  }

  /** The outer loop's round for a port that opens a new cluster. */
  lemma LoopStepNew(ports: seq<int>, distance: (int, int) -> real, threshold: real,
                    i: nat, processed: set<int>, clusters: seq<Cluster>, seedAt: seq<nat>,
                    members: seq<int>, processed': set<int>, cluster: Cluster)
    requires LoopInv(ports, distance, threshold, i, processed, clusters, seedAt)
    requires i < |ports| && ports[i] !in processed
    requires |members| >= 1 && members[0] == ports[i]
    requires processed' == processed + set x | x in members
    requires Distinct(members)
    requires forall x :: x in members && x != ports[i] ==> x in ports && x !in processed
    requires forall x :: x in members && x != ports[i] ==> distance(ports[i], x) <= threshold
    requires forall j :: (0 <= j < |ports| && ports[j] !in processed
      && distance(ports[i], ports[j]) <= threshold) ==> ports[j] in members
    requires cluster == Cluster(SortAscending(members), |members| > 1)
    ensures LoopInv(ports, distance, threshold, i + 1, processed', clusters + [cluster], seedAt + [i])
  {
    assert NewCluster(ports, distance, threshold, clusters, i, members, cluster);
    StepGreedy(ports, distance, threshold, clusters, seedAt, i, members, cluster);
    StepCovered(ports, i, processed, clusters, members, processed', cluster);
  }

  /** The outer loop's round for a port some cluster already took. */
  lemma LoopStepSkip(ports: seq<int>, distance: (int, int) -> real, threshold: real,
                     i: nat, processed: set<int>, clusters: seq<Cluster>, seedAt: seq<nat>)
    requires LoopInv(ports, distance, threshold, i, processed, clusters, seedAt)
    requires i < |ports| && ports[i] in processed
    ensures LoopInv(ports, distance, threshold, i + 1, processed, clusters, seedAt)
  {
  }

  /** After the last input port the clusters cover exactly the input. */
  lemma LoopDone(ports: seq<int>, distance: (int, int) -> real, threshold: real,
                 processed: set<int>, clusters: seq<Cluster>, seedAt: seq<nat>)
    requires LoopInv(ports, distance, threshold, |ports|, processed, clusters, seedAt)
    ensures Covered(clusters) == set x | x in ports
    ensures Greedy(ports, distance, threshold, clusters, seedAt)
  {
    forall x | x in ports ensures x in Covered(clusters) {
      var j :| 0 <= j < |ports| && ports[j] == x;
    }
  }

  lemma StepGreedy(ports: seq<int>, distance: (int, int) -> real, threshold: real,
                   clusters: seq<Cluster>, seedAt: seq<nat>, i: nat, members: seq<int>, cluster: Cluster)
    requires Greedy(ports, distance, threshold, clusters, seedAt)
    requires forall k :: 0 <= k < |seedAt| ==> seedAt[k] < i
    requires NewCluster(ports, distance, threshold, clusters, i, members, cluster)
    ensures Greedy(ports, distance, threshold, clusters + [cluster], seedAt + [i])
  {
    StepPartitioned(ports, distance, threshold, clusters, i, members, cluster);
    StepShaped(ports, distance, threshold, clusters, i, members, cluster);
    StepMaximal(ports, distance, threshold, clusters, seedAt, i, members, cluster);
    StepOrder(ports, distance, threshold, clusters, seedAt, i, members, cluster);
  }

  lemma StepCovered(ports: seq<int>, i: nat, processed: set<int>, clusters: seq<Cluster>,
                    members: seq<int>, processed': set<int>, cluster: Cluster)
    requires i < |ports| && processed == Covered(clusters) && processed <= (set x | x in ports)
    requires forall j :: 0 <= j < i ==> ports[j] in processed
    requires |members| >= 1 && members[0] == ports[i]
    requires processed' == processed + set x | x in members
    requires forall x :: x in members && x != ports[i] ==> x in ports
    requires cluster == Cluster(SortAscending(members), |members| > 1)
    ensures processed' == Covered(clusters + [cluster]) && processed' <= (set x | x in ports)
    ensures forall j :: 0 <= j < i + 1 ==> ports[j] in processed'
  {
    CoveredSnoc(clusters, cluster);
    SortedClusterKeepsPorts(members);
    assert Members(cluster) == set x | x in members;
    assert ports[i] in processed';
  }

  /** `clusterPorts`: for each port not yet taken, in input order, start a
      cluster with it as seed and take every other untaken port within
      `threshold` of the seed; sort the cluster's ports. `seedAt[k]` is the
      input index of cluster k's seed.
      The clusters cover exactly the input ports; they form a partition, each
      is sorted and flagged `isCluster` iff it has more than one port, holds
      its seed and only ports near it, takes every port near its seed that no
      earlier cluster took, and the seeds are the first unclustered ports in
      input order. */
  method ClusterPorts(ports: seq<int>, distance: (int, int) -> real, threshold: real)
    returns (clusters: seq<Cluster>, ghost seedAt: seq<nat>)
    ensures Covered(clusters) == set x | x in ports
    ensures Partitioned(clusters)
    ensures WellShaped(clusters)
    ensures SeededNear(ports, distance, threshold, clusters, seedAt)
    ensures Maximal(ports, distance, threshold, clusters, seedAt)
    ensures FirstSeedOrder(ports, clusters, seedAt)
  {
    clusters, seedAt := [], [];
    var processed: set<int> := {};
    var i := 0;
    while i < |ports|
      invariant LoopInv(ports, distance, threshold, i, processed, clusters, seedAt)
    {
      var seed := ports[i];
      if seed !in processed {
        var members, processed' := GatherNear(ports, seed, processed, distance, threshold);
        var cluster := Cluster(SortAscending(members), |members| > 1);
        LoopStepNew(ports, distance, threshold, i, processed, clusters, seedAt, members, processed', cluster);
        clusters := clusters + [cluster];
        seedAt := seedAt + [i];
        processed := processed';
      } else {
        LoopStepSkip(ports, distance, threshold, i, processed, clusters, seedAt);
      }
      i := i + 1;
    }
    LoopDone(ports, distance, threshold, processed, clusters, seedAt);
  }
}

=== FILE: port_scanner.dfy ===
/** The `PortScanner` class of `src/services/portScanner.ts`: its abort
    controller and its three scans.

    Probes run one after another: the concurrency of a batch under
    `Promise.all` and the delays between batches are not modelled. The
    network is the input `net`, the platform the input `platform`, and a
    progress callback is replaced by the list of reports a scan returns. */
module PortScanning {
  import opened Common
  import opened PortTypes
  import opened Config
  import opened ScannerLogic

  /** The part of an `AbortController` the scanner uses: its signal's
      `aborted` flag. */
  class AbortController {
    var aborted: bool

    constructor()
      ensures !aborted
    {
      aborted := false;
    }

    method Abort()
      modifies this
      ensures aborted
    {
      aborted := true;
    }
  }

  /** `portScanner.testPort` on each port of `batch` in order, after
      `completed` of `total` probes: the results and one progress report per
      probe (the body of a batch's `map`). */
  method ProbeBatch(platform: Platform, net: Network, batch: seq<int>, timeout: int, completed: nat, total: int)
    returns (statuses: seq<ServiceStatus>, reports: seq<ScanProgress>)
    requires completed + |batch| <= total
    ensures statuses == Statuses(platform, net, batch, timeout)
    ensures reports == ReportsFrom(batch, completed, total)
  {
    statuses, reports := [], [];
    var done := completed;
    for j := 0 to |batch|
      invariant done == completed + j
      invariant statuses == Statuses(platform, net, batch[..j], timeout)
      invariant reports == ReportsFrom(batch[..j], completed, total)
    {
      var port := batch[j];
      var result := TestPort(platform, port, timeout, net(port, timeout));
      ProbeNext(platform, net, batch, j, timeout, completed, total);
      done := done + 1;
      statuses := statuses + [result];
      reports := reports + [Report(done, total, port)];
    }
    assert batch[..|batch|] == batch;
  }

  /** Probing port `j` of a batch extends the results and the reports of
      the ports before it by one each. */
  lemma ProbeNext(platform: Platform, net: Network, batch: seq<int>, j: int, timeout: int, completed: nat, total: int)
    requires 0 <= j < |batch| && completed + |batch| <= total
    ensures Statuses(platform, net, batch[..j + 1], timeout)
      == Statuses(platform, net, batch[..j], timeout) + [TestPort(platform, batch[j], timeout, net(batch[j], timeout))]
    ensures ReportsFrom(batch[..j + 1], completed, total)
      == ReportsFrom(batch[..j], completed, total) + [Report(completed + j + 1, total, batch[j])]
  {
    TakeSnoc(batch, j);
    StatusesSnoc(platform, net, batch[..j], batch[j], timeout);
    ReportsFromSnoc(batch[..j], batch[j], completed, total);
  }

  /** The candidate list of `quickScan`: a copy of `common`, then each port
      of each range, in order, unless the list already holds it. */
  method BuildCandidates(common: seq<int>, ranges: seq<(int, int)>) returns (ports: seq<int>)
    ensures ports == AddRanges(common, ranges)
  {
    ports := common;
    for r := 0 to |ranges|
      invariant ports == AddRanges(common, ranges[..r])
    {
      var (start, end) := ranges[r];
      ghost var before := ports;
      var port := start;
      while port <= end
        invariant start <= port <= end + 1 || (port == start && start > end)
        invariant ports == AddMissing(before, Interval(start, port - 1))
        decreases end - port
      {
        IntervalSnoc(start, port - 1);
        if port !in ports {
          ports := ports + [port];
        }
        port := port + 1;
      }
      assert Interval(start, port - 1) == Interval(start, end);
      assert ranges[..r + 1][..r] == ranges[..r];
    }
    assert ranges[..|ranges|] == ranges;
  }

  /** The port list of `scanRange`: `startPort` up to `endPort` inclusive,
      ascending; empty when the range is inverted. */
  method RangePorts(startPort: int, endPort: int) returns (ports: seq<int>)
    ensures ports == Interval(startPort, endPort)
  {
    ports := [];
    var port := startPort;
    while port <= endPort
      invariant startPort <= port <= endPort + 1 || (port == startPort && startPort > endPort)
      invariant ports == Interval(startPort, port - 1)
      decreases endPort - port
    {
      IntervalSnoc(startPort, port - 1);
      ports := ports + [port];
      port := port + 1;
    }
  }

  /** How many ports `scanPorts` probes when the controller is found
      aborted before batch `abortBefore` (if that batch is ever reached). */
  function ScannedCount(count: int, size: int, abortBefore: Option<nat>): (n: int)
    requires 0 <= count && size > 0
    ensures 0 <= n <= count
    ensures abortBefore.None? ==> n == count
  {
    if abortBefore.Some? && abortBefore.value * size < count then abortBefore.value * size else count
  }

  /** What `scanPorts` has gathered after probing the first `completed`
      ports in the batches `batches`. */
  ghost predicate ScanSoFar(platform: Platform, net: Network, ports: seq<int>, timeout: int, size: int,
                            completed: int, results: seq<ServiceStatus>, progress: seq<ScanProgress>,
                            batches: seq<seq<int>>) {
    && size > 0 && 0 <= completed <= |ports|
    && results == Statuses(platform, net, ports[..completed], timeout)
    && progress == Reports(ports[..completed], |ports|)
    && Flatten(batches) == ports[..completed]
    && batches <= Batches(ports, size)
  }

  /** Probing batch `k` (which starts at port `completed == k * size`)
      extends what `scanPorts` has gathered. */
  lemma ScanStep(platform: Platform, net: Network, ports: seq<int>, timeout: int, size: int, k: nat,
                 completed: int, results: seq<ServiceStatus>, progress: seq<ScanProgress>,
                 batches: seq<seq<int>>, statuses: seq<ServiceStatus>, reports: seq<ScanProgress>)
    requires ScanSoFar(platform, net, ports, timeout, size, completed, results, progress, batches)
    requires completed == k * size < |ports| && |batches| == k
    requires var batch := ports[completed..Min(completed + size, |ports|)];
      statuses == Statuses(platform, net, batch, timeout) && reports == ReportsFrom(batch, completed, |ports|)
    ensures var end := Min(completed + size, |ports|);
      ScanSoFar(platform, net, ports, timeout, size, end, results + statuses, progress + reports,
                batches + [ports[completed..end]])
    ensures completed + size == (k + 1) * size
  {
    var end := Min(completed + size, |ports|);
    var batch := ports[completed..end];
    BatchAt(ports, size, k);
    StatusesAppend(platform, net, ports[..completed], batch, timeout);
    ReportsAppend(ports[..completed], batch, |ports|);
    FlattenSnoc(batches, batch);
    TakeConcat(ports, completed, end);
    var all := Batches(ports, size);
    assert batches == all[..k];
    assert batches + [batch] == all[..k + 1];
  }

  /** Where `scanPorts` stops: either the abort was found before batch `k`
      (which starts inside the list), or all batches up to `k` ran without
      reaching the abort and `k` batches cover the list. */
  lemma ScanStops(count: int, size: int, k: nat, abortBefore: Option<nat>, aborted: bool)
    requires 0 <= count && size > 0
    requires aborted ==> abortBefore == Some(k) && k * size < count
    requires !aborted ==> k * size >= count && (abortBefore.Some? ==> k <= abortBefore.value)
    ensures ScannedCount(count, size, abortBefore) == Min(k * size, count)
    ensures ScannedCount(count, size, abortBefore) == count <==> !aborted
  {
    if !aborted && abortBefore.Some? {
      MulLe(k, abortBefore.value, size);
    }
  }

  class PortScanner {
    var abortController: AbortController?

    /** A new scanner has no controller. */
    constructor()
      ensures abortController == null
    {
      abortController := null;
    }

    /** `isScanning`: a controller is installed and not aborted. */
    predicate IsScanning()
      reads this, abortController
    {
      abortController != null && !abortController.aborted
    }

    /** `cancelScan`: abort the installed controller, if any, and drop it. */
    method CancelScan()
      modifies this, abortController
      ensures abortController == null && !IsScanning()
      ensures old(abortController) != null ==> old(abortController).aborted
    {
      if abortController != null {
        abortController.Abort();
        abortController := null;
      }
    }

    /** `scanPorts(ports, { timeout, maxConcurrent }, onProgress)`: install a
        fresh controller, then probe `ports` in consecutive batches of
        `maxConcurrent`, checking the controller before each batch. The
        environment may abort the controller just before batch
        `abortBefore`. The result has one `Port` per probed port, in order,
        listening iff the probe found it online; every probe is reported in
        order. Unless the abort came, the whole list is probed and the
        scanner still counts as scanning afterwards. */
    method ScanPorts(ports: seq<int>, timeout: int := DEFAULT_TIMEOUT, maxConcurrent: int := DEFAULT_MAX_CONCURRENT, platform: Platform, net: Network,
                     abortBefore: Option<nat>)
      returns (result: seq<PortEntry>, progress: seq<ScanProgress>, ghost batches: seq<seq<int>>)
      requires maxConcurrent > 0
      modifies this
      ensures abortController != null && fresh(abortController)
      ensures var n := ScannedCount(|ports|, maxConcurrent, abortBefore);
        result == Entries(Statuses(platform, net, ports[..n], timeout))
        && progress == Reports(ports[..n], |ports|)
        && Flatten(batches) == ports[..n]
        && batches <= Batches(ports, maxConcurrent)
      ensures IsScanning() <==> ScannedCount(|ports|, maxConcurrent, abortBefore) == |ports|
    {
      var controller := new AbortController();
      abortController := controller;
      var results: seq<ServiceStatus> := [];
      progress, batches := [], [];
      var total := |ports|;
      var completed := 0;
      var i, k := 0, 0;
      while i < |ports|
        invariant abortController == controller && !controller.aborted
        invariant i == k * maxConcurrent && k >= 0
        invariant completed == Min(i, |ports|)
        invariant abortBefore.Some? ==> k <= abortBefore.value
        invariant ScanSoFar(platform, net, ports, timeout, maxConcurrent, completed, results, progress, batches)
        invariant |batches| == k
        decreases |ports| - i
      {
        if abortBefore == Some(k) {
          controller.Abort();
        }
        if controller.aborted {
          break;
        }
        var end := Min(i + maxConcurrent, |ports|);
        var batch := ports[i..end];
        var statuses, reports := ProbeBatch(platform, net, batch, timeout, completed, total);
        ScanStep(platform, net, ports, timeout, maxConcurrent, k, completed, results, progress, batches, statuses, reports);
        results := results + statuses;
        progress := progress + reports;
        batches := batches + [batch];
        completed := end;
        i, k := i + maxConcurrent, k + 1;
      }
      ScanStops(|ports|, maxConcurrent, k, abortBefore, controller.aborted);
      result := Entries(results);
    }

    /** `quickScan`: probe the candidate list (the common ports, then the
        missing ports of the default ranges) in batches of 3 with a 2000 ms
        timeout; every result is returned, online or not, in list order,
        with one progress report per probe. The controller is not used. */
    method QuickScan(platform: Platform, net: Network) returns (results: seq<ServiceStatus>, progress: seq<ScanProgress>)
      ensures results == Statuses(platform, net, QuickScanPorts(), QUICK_SCAN_TIMEOUT)
      ensures progress == Reports(QuickScanPorts(), |QuickScanPorts()|)
    {
      var commonPorts := BuildCandidates(COMMON_DEV_PORTS, DEFAULT_PORT_RANGES);
      results, progress := [], [];
      var total := |commonPorts|;
      var i := 0;
      while i < |commonPorts|
        invariant 0 <= i <= |commonPorts| + QUICK_SCAN_BATCH
        invariant results == Statuses(platform, net, commonPorts[..Min(i, total)], QUICK_SCAN_TIMEOUT)
        invariant progress == Reports(commonPorts[..Min(i, total)], total)
        decreases |commonPorts| - i
      {
        var end := Min(i + QUICK_SCAN_BATCH, total);
        var batch := commonPorts[i..end];
        var statuses, reports := ProbeBatch(platform, net, batch, QUICK_SCAN_TIMEOUT, i, total);
        StatusesAppend(platform, net, commonPorts[..i], batch, QUICK_SCAN_TIMEOUT);
        ReportsAppend(commonPorts[..i], batch, total);
        TakeConcat(commonPorts, i, end);
        results := results + statuses;
        progress := progress + reports;
        i := i + QUICK_SCAN_BATCH;
      }
      assert commonPorts[..total] == commonPorts;
    }

    /** `scanRange(startPort, endPort)`: probe `startPort..endPort` one by
        one with a 1500 ms timeout, stopping if the installed controller is
        aborted. A scan is sequential here, so the flag does not change
        during it: an aborted controller gives nothing, otherwise every port
        of the range is probed in ascending order. */
    method ScanRange(startPort: int, endPort: int, platform: Platform, net: Network)
      returns (results: seq<ServiceStatus>, progress: seq<ScanProgress>)
      ensures var aborted := abortController != null && abortController.aborted;
        var range := Interval(startPort, endPort);
        results == (if aborted then [] else Statuses(platform, net, range, RANGE_SCAN_TIMEOUT))
        && progress == (if aborted then [] else Reports(range, |range|))
    {
      var ports := RangePorts(startPort, endPort);
      results, progress := [], [];
      var total := |ports|;
      var completed := 0;
      ghost var aborted := abortController != null && abortController.aborted;
      while completed < |ports|
        invariant 0 <= completed <= |ports|
        invariant aborted ==> completed == 0
        invariant results == Statuses(platform, net, ports[..completed], RANGE_SCAN_TIMEOUT)
        invariant progress == Reports(ports[..completed], total)
      {
        if abortController != null && abortController.aborted {
          break;
        }
        var p := ports[completed];
        var result := TestPort(platform, p, RANGE_SCAN_TIMEOUT, net(p, RANGE_SCAN_TIMEOUT));
        ProbeNext(platform, net, ports, completed, RANGE_SCAN_TIMEOUT, 0, total);
        results := results + [result];
        completed := completed + 1;
        progress := progress + [Report(completed, total, p)];
      }
      assert ports[..|ports|] == ports;
    }
  }
}

=== FILE: port_types.dfy ===
/** The record shapes of `src/types/port.ts` that the scanner and the global
    state exchange. Timestamps (`lastChecked`, `timestamp`) and the optional
    `headers`, `pid` and `process` members are not part of this model. */
module PortTypes {
  import opened Common

  /** `ServiceType`: the closed set of service classifications. */
  datatype ServiceType =
    | ReactDev         // "react-dev"
    | NextJs           // "nextjs"
    | ExpressApi       // "express-api"
    | StaticServer     // "static-server"
    | DatabaseAdmin    // "database-admin"
    | AirplayReceiver  // "airplay-receiver"
    | Unknown          // "unknown"
    | ViteDev          // "vite-dev"
    | WebpackDev       // "webpack-dev"

  /** `ServiceStatus.status`. */
  datatype Status = Online | Offline | Testing | Error

  /** `ServiceStatus`: the outcome of probing one port. */
  datatype ServiceStatus = ServiceStatus(
    port: int,
    status: Status,
    responseTime: Option<int>,
    serviceType: ServiceType,
    error: Option<string>)

  /** `Port.state` and `Port.protocol`. */
  datatype PortState = Listen | Established | Closed
  datatype Protocol = Tcp | Udp

  /** `Port`, as `scanPorts` builds it (without `pid` and `process`). */
  datatype PortEntry = PortEntry(port: int, state: PortState, protocol: Protocol)

  /** `ScanProgress`, one report per completed probe. */
  datatype ScanProgress = ScanProgress(
    current: int,
    total: int,
    currentPort: int,
    percentage: int,
    isComplete: bool)

  /** `ScanSettings`. */
  datatype Theme = Dark | Light
  datatype ScanSettings = ScanSettings(
    autoRefresh: bool,
    refreshInterval: int,
    defaultPortRanges: seq<(int, int)>,
    excludedPorts: seq<int>,
    enableNotifications: bool,
    theme: Theme)
}

=== FILE: radar_geometry.dfy ===
/** The radar's port geometry from `src/utils/util.ts`: ports 1000..8019 are
    laid out on 36 radial lines, 10 degrees apart, 195 consecutive ports per
    line; a port's offset within its line sets its distance from the centre.
    Cartesian `x`/`y` (cosine and sine) are not part of this model; angles,
    lines and radii are. Fractions and radii are exact reals. */
module RadarGeometry {
  import opened Common

  // RADAR_CONSTANTS
  const START_PORT: int := 1000
  const END_PORT: int := 8019
  const TOTAL_MAPPED_PORTS: int := 7020
  const DEGREES_PER_LINE: int := 10
  const TOTAL_LINES: int := 36
  const PORTS_PER_LINE: int := 195

  predicate IsMapped(port: int) {
    START_PORT <= port <= END_PORT
  }

  predicate IsLine(line: int) {
    0 <= line < TOTAL_LINES
  }

  /** `getPortLine`: -1 outside the mapped range, otherwise the line whose
      block of 195 ports holds `port`. */
  function GetPortLine(port: int): (line: int)
    ensures line == -1 <==> !IsMapped(port)
    ensures IsMapped(port) ==> IsLine(line)
    ensures IsMapped(port) ==>
      START_PORT + line * PORTS_PER_LINE <= port < START_PORT + (line + 1) * PORTS_PER_LINE
  {
    if port < START_PORT || port > END_PORT then -1
    else (port - START_PORT) / PORTS_PER_LINE
  }

  /** The mapped range fills every line: the first port of each block of
      195 maps to that line, 1000 to line 0 and 8019 to line 35, and no port
      of the range is left off the last line. */
  lemma GetPortLineOnto(line: int)
    requires IsLine(line)
    ensures var first := START_PORT + line * PORTS_PER_LINE;
      IsMapped(first) && GetPortLine(first) == line
    ensures GetPortLine(START_PORT) == 0 && GetPortLine(END_PORT) == TOTAL_LINES - 1
    ensures END_PORT - START_PORT + 1 == TOTAL_MAPPED_PORTS == TOTAL_LINES * PORTS_PER_LINE
  {
    var first := START_PORT + line * PORTS_PER_LINE;
    assert (first - START_PORT) / PORTS_PER_LINE == line;
  }

  /** `getPortPositionOnLine`: 0 outside the mapped range, otherwise the
      offset within the line divided by 194, a fraction in [0, 1]. */
  function GetPortPositionOnLine(port: int): (pos: real)
    ensures 0.0 <= pos <= 1.0
    ensures !IsMapped(port) ==> pos == 0.0
    ensures IsMapped(port) ==>
      pos * (PORTS_PER_LINE - 1) as real
        == (port - START_PORT - GetPortLine(port) * PORTS_PER_LINE) as real
  {
    if port < START_PORT || port > END_PORT then 0.0
    else ((port - START_PORT) % PORTS_PER_LINE) as real / (PORTS_PER_LINE - 1) as real
  }

  /** The first port of a line sits on the inner ring (0) and the last on the
      outer ring (1). */
  lemma PositionAtLineEnds(line: int)
    requires IsLine(line)
    ensures GetPortPositionOnLine(START_PORT + line * PORTS_PER_LINE) == 0.0
    ensures GetPortPositionOnLine(START_PORT + line * PORTS_PER_LINE + PORTS_PER_LINE - 1) == 1.0
  {
    var first := START_PORT + line * PORTS_PER_LINE;
    assert GetPortLine(first) == line;
    assert GetPortLine(first + PORTS_PER_LINE - 1) == line;
  }

  /** `lineToAngle`. */
  function LineToAngle(line: int): (angle: int)
    ensures IsLine(line) ==> 0 <= angle <= 350 && angle % DEGREES_PER_LINE == 0
    ensures angle / DEGREES_PER_LINE == line
  {
    line * DEGREES_PER_LINE
  }

  /** The radius part of `calculatePortPosition`: two linear pieces through
      30% (position 0), 65% (position 0.5) and 95% (position 1) of `maxRadius`. */
  function Radius(maxRadius: real, positionOnLine: real): (radius: real)
  {
    var innerRadius := maxRadius * 0.3;
    var middleRadius := maxRadius * 0.65;
    var outerRadius := maxRadius * 0.95;
    if positionOnLine <= 0.5 then
      innerRadius + (positionOnLine * 2.0) * (middleRadius - innerRadius)
    else
      middleRadius + ((positionOnLine - 0.5) * 2.0) * (outerRadius - middleRadius)
  }

  /** The three rings the radius interpolates between. */
  lemma RadiusRings(maxRadius: real)
    ensures Radius(maxRadius, 0.0) == 0.3 * maxRadius
    ensures Radius(maxRadius, 0.5) == 0.65 * maxRadius
    ensures Radius(maxRadius, 1.0) == 0.95 * maxRadius
  {
  }

  /** Both pieces are one line each: 0.3m + 0.7m·p up to 0.5, 0.35m + 0.6m·p after. */
  lemma RadiusPieces(maxRadius: real, p: real)
    ensures p <= 0.5 ==> Radius(maxRadius, p) == 0.3 * maxRadius + 0.7 * (maxRadius * p)
    ensures p > 0.5 ==> Radius(maxRadius, p) == 0.35 * maxRadius + 0.6 * (maxRadius * p)
  {
  }

  /** For a non-negative radar size the radius never shrinks as the position
      moves outwards. */
  lemma RadiusMonotone(maxRadius: real, p: real, q: real)
    requires 0.0 <= maxRadius
    requires p <= q
    ensures Radius(maxRadius, p) <= Radius(maxRadius, q)
  {
    RadiusPieces(maxRadius, p);
    RadiusPieces(maxRadius, q);
    if q <= 0.5 || p > 0.5 {
      ScaleMonotone(maxRadius, p, q);
    } else {
      ScaleMonotone(maxRadius, p, 0.5);
      ScaleMonotone(maxRadius, 0.5, q);
    }
  }

  /** Scaling by a non-negative factor keeps the order. */
  lemma ScaleMonotone(m: real, x: real, y: real)
    requires 0.0 <= m && x <= y
    ensures m * x <= m * y
  {
    assert m * y - m * x == m * (y - x);
    assert m * (y - x) >= 0.0;
  }

  /** For positions in [0, 1] the radius stays between the inner and the outer ring. */
  lemma RadiusBounds(maxRadius: real, p: real)
    requires 0.0 <= maxRadius
    requires 0.0 <= p <= 1.0
    ensures 0.3 * maxRadius <= Radius(maxRadius, p) <= 0.95 * maxRadius
  {
    RadiusMonotone(maxRadius, 0.0, p);
    RadiusMonotone(maxRadius, p, 1.0);
  }

  /** `PortRadarPosition` without the Cartesian `x` and `y`. */
  datatype PortRadarPosition = PortRadarPosition(angle: int, radius: real, line: int, positionOnLine: real)

  /** `calculatePortPosition` (angle, radius, line, position). An unmapped
      port gets line -1, hence angle -10, and the inner-ring radius. */
  function CalculatePortPosition(port: int, maxRadius: real): (p: PortRadarPosition)
    ensures !IsMapped(port) ==>
      p.line == -1 && p.angle == -10 && p.positionOnLine == 0.0 && p.radius == 0.3 * maxRadius
    ensures IsMapped(port) ==> IsLine(p.line) && 0 <= p.angle < 360 && p.angle == 10 * p.line
    ensures IsMapped(port) ==>
      p.line == GetPortLine(port) && p.positionOnLine == GetPortPositionOnLine(port)
      && 0.0 <= p.positionOnLine <= 1.0 && p.radius == Radius(maxRadius, p.positionOnLine)
  {
    var line := GetPortLine(port);
    var positionOnLine := GetPortPositionOnLine(port);
    var angle := LineToAngle(line);
    var radius := Radius(maxRadius, positionOnLine);
    PortRadarPosition(angle, radius, line, positionOnLine)
  }

  function Abs(x: real): real {
    if x < 0.0 then -x else x
  }

  function AbsInt(x: int): int {
    if x < 0 then -x else x
  }

  /** Lines that `portsWillOverlap` treats as neighbours: equal, or one
      apart around the circle (difference 1 or 35). */
  predicate NeighbourLines(l1: int, l2: int) {
    l1 == l2 || AbsInt(l1 - l2) == 1 || AbsInt(l1 - l2) == 35
  }

  /** `portsWillOverlap` (default threshold 0.01). */
  function PortsWillOverlap(port1: int, port2: int, threshold: real): (overlap: bool)
    ensures overlap <==>
      NeighbourLines(GetPortLine(port1), GetPortLine(port2))
      && Abs(GetPortPositionOnLine(port1) - GetPortPositionOnLine(port2)) < threshold
  {
    var line1 := GetPortLine(port1);
    var line2 := GetPortLine(port2);
    var pos1 := GetPortPositionOnLine(port1);
    var pos2 := GetPortPositionOnLine(port2);
    if line1 == line2 then Abs(pos1 - pos2) < threshold
    else if AbsInt(line1 - line2) == 1 || AbsInt(line1 - line2) == 35 then Abs(pos1 - pos2) < threshold
    else false
  }

  /** Overlap does not depend on the order of the two ports. */
  lemma OverlapSymmetric(port1: int, port2: int, threshold: real)
    ensures PortsWillOverlap(port1, port2, threshold) == PortsWillOverlap(port2, port1, threshold)
  {
  }

  /** Two mapped ports whose lines are more than one line apart (around the
      circle) never overlap, whatever the threshold. */
  lemma DistantLinesNeverOverlap(port1: int, port2: int, threshold: real)
    requires IsMapped(port1) && IsMapped(port2)
    requires var d := AbsInt(GetPortLine(port1) - GetPortLine(port2)); 2 <= d <= 34
    ensures !PortsWillOverlap(port1, port2, threshold)
  {
  }

  /** An unmapped port sits on line -1 at position 0, so it counts as a
      neighbour of line 0 and of line 34: it overlaps port 1000 (first of
      line 0) and port 7630 (first of line 34) for any positive threshold. */
  lemma UnmappedNeighboursLinesZeroAndThirtyFour(port: int, threshold: real)
    requires !IsMapped(port)
    requires threshold > 0.0
    ensures PortsWillOverlap(port, 1000, threshold)
    ensures PortsWillOverlap(port, 7630, threshold)
  {
    assert GetPortLine(7630) == 34;
    assert GetPortPositionOnLine(7630) == 0.0;
  }

  /** `getPortRangeForLine`: `(0, 0)` for an invalid line, otherwise the
      first and last port of the line's block (the end clamped to 8019).
      A valid line's range holds exactly the mapped ports on that line. */
  function GetPortRangeForLine(line: int): (range: (int, int))
    ensures !IsLine(line) ==> range == (0, 0)
    ensures IsLine(line) ==>
      range.0 == START_PORT + line * PORTS_PER_LINE && range.1 - range.0 + 1 == PORTS_PER_LINE
    ensures IsLine(line) ==>
      forall p :: range.0 <= p <= range.1 <==> IsMapped(p) && GetPortLine(p) == line
  {
    if line < 0 || line >= TOTAL_LINES then (0, 0)
    else
      var startPort := START_PORT + line * PORTS_PER_LINE;
      var endPort := startPort + PORTS_PER_LINE - 1;
      var clampedEnd := if endPort < END_PORT then endPort else END_PORT;
      (startPort, clampedEnd)
  }

  /** Round trip: every mapped port lies in the range of its own line. */
  lemma PortInOwnLineRange(port: int)
    requires IsMapped(port)
    ensures var range := GetPortRangeForLine(GetPortLine(port));
      range.0 <= port <= range.1
  {
  }

  /** The 36 ranges tile 1000..8019 with no gap and no overlap: line 0 starts
      at 1000, line 35 ends at 8019, each line ends just before the next
      starts, and the clamp to 8019 never shortens a range. */
  lemma LineRangesTile(line: int)
    requires IsLine(line)
    ensures GetPortRangeForLine(0).0 == START_PORT
    ensures GetPortRangeForLine(TOTAL_LINES - 1).1 == END_PORT
    ensures line + 1 < TOTAL_LINES ==>
      GetPortRangeForLine(line).1 + 1 == GetPortRangeForLine(line + 1).0
    ensures START_PORT + line * PORTS_PER_LINE + PORTS_PER_LINE - 1 <= END_PORT
  {
  }

  /** `getPortsForLine`: the ports of `getPortRangeForLine(line)` in
      ascending order. An invalid line yields `[0]` (the range is `(0, 0)`). */
  method GetPortsForLine(line: int) returns (ports: seq<int>)
    ensures var range := GetPortRangeForLine(line); ports == Interval(range.0, range.1)
    ensures !IsLine(line) ==> ports == [0]
    ensures IsLine(line) ==> |ports| == PORTS_PER_LINE
    ensures IsLine(line) ==> forall p :: p in ports <==> IsMapped(p) && GetPortLine(p) == line
  {
    var range := GetPortRangeForLine(line);
    var start, end := range.0, range.1;
    ports := [];
    var port := start;
    while port <= end
      invariant start <= port <= end + 1
      invariant ports == Interval(start, port - 1)
    {
      IntervalSnoc(start, port - 1);
      ports := ports + [port];
      port := port + 1;
    }
    forall p ensures p in ports <==> start <= p <= end {
      IntervalMembers(start, end, p);
    }
  }
}

=== FILE: radar_stats.dfy ===
/** `getRadarStats` of `src/utils/util.ts`: how many ports fall on each of the
    36 radar lines. */
module RadarStatistics {
  import opened RadarGeometry

  datatype RadarStats = RadarStats(
    totalPorts: int,
    lineDistribution: seq<int>,
    averagePortsPerLine: real,
    maxPortsOnLine: int,
    minPortsOnLine: int)

  /** The number of ports in `ports` that the radar puts on `line`. */
  function Count(ports: seq<int>, line: int): (n: nat)
    ensures n <= |ports|
    ensures !IsLine(line) ==> n == 0
  {
    if ports == [] then 0
    else
      var last := ports[|ports| - 1];
      Count(ports[..|ports| - 1], line) + (if IsMapped(last) && GetPortLine(last) == line then 1 else 0)
  }

  /** The number of ports in `ports` that lie on some line. */
  function MappedCount(ports: seq<int>): (n: nat)
    ensures n <= |ports|
  {
    if ports == [] then 0
    else MappedCount(ports[..|ports| - 1]) + (if IsMapped(ports[|ports| - 1]) then 1 else 0)
  }

  /** The per-line counts, line 0 first. */
  function Dist(ports: seq<int>): seq<int> {
    seq(TOTAL_LINES, l => Count(ports, l))
  }

  function Sum(s: seq<int>): int {
    if s == [] then 0 else Sum(s[..|s| - 1]) + s[|s| - 1]
  }

  /** `Math.max(...s)` on a non-empty list: an element that bounds all others. */
  function SeqMax(s: seq<int>): (m: int)
    requires s != []
    ensures m in s && forall x :: x in s ==> x <= m
  {
    if |s| == 1 then s[0]
    else
      var m' := SeqMax(s[..|s| - 1]);
      assert forall x :: x in s ==> x in s[..|s| - 1] || x == s[|s| - 1];
      if s[|s| - 1] > m' then s[|s| - 1] else m'
  }

  /** `Math.min(...s)` on a non-empty list. */
  function SeqMin(s: seq<int>): (m: int)
    requires s != []
    ensures m in s && forall x :: x in s ==> m <= x
  {
    if |s| == 1 then s[0]
    else
      var m' := SeqMin(s[..|s| - 1]);
      assert forall x :: x in s ==> x in s[..|s| - 1] || x == s[|s| - 1];
      if s[|s| - 1] < m' then s[|s| - 1] else m'
  }

  /** `getRadarStats`: count the ports per line in a 36-entry array. An
      unmapped port has line -1, and `lineDistribution[-1]++` only sets a
      non-index property of the JavaScript array, so it leaves the 36
      counters untouched; it still counts in `totalPorts` and the average.
      When every port is mapped, the counters add up to the number of ports
      and the average lies between the smallest and the largest counter. */
  method GetRadarStats(ports: seq<int>) returns (stats: RadarStats)
    ensures stats.totalPorts == |ports|
    ensures |stats.lineDistribution| == TOTAL_LINES
    ensures forall l :: 0 <= l < TOTAL_LINES ==> stats.lineDistribution[l] == Count(ports, l)
    ensures Sum(stats.lineDistribution) == MappedCount(ports)
    ensures stats.averagePortsPerLine == |ports| as real / TOTAL_LINES as real
    ensures stats.maxPortsOnLine in stats.lineDistribution
    ensures forall n :: n in stats.lineDistribution ==> n <= stats.maxPortsOnLine
    ensures stats.minPortsOnLine in stats.lineDistribution
    ensures forall n :: n in stats.lineDistribution ==> stats.minPortsOnLine <= n
    ensures (forall p :: p in ports ==> IsMapped(p)) ==>
      Sum(stats.lineDistribution) == |ports|
      && stats.minPortsOnLine as real <= stats.averagePortsPerLine <= stats.maxPortsOnLine as real
  {
    var lineDistribution := new int[TOTAL_LINES](_ => 0);
    var i := 0;
    while i < |ports|
      invariant 0 <= i <= |ports|
      invariant forall l :: 0 <= l < TOTAL_LINES ==> lineDistribution[l] == Count(ports[..i], l)
    {
      assert ports[..i + 1][..i] == ports[..i];
      var line := GetPortLine(ports[i]);
      if line >= 0 {
        lineDistribution[line] := lineDistribution[line] + 1;
      }
      i := i + 1;
    }
    assert ports[..i] == ports;
    var dist := lineDistribution[..];
    assert dist == Dist(ports);
    DistSum(ports);
    stats := RadarStats(|ports|, dist, |ports| as real / TOTAL_LINES as real, SeqMax(dist), SeqMin(dist));
    if forall p :: p in ports ==> IsMapped(p) {
      AllMappedCounted(ports);
      SumBetweenExtremes(dist, SeqMin(dist), SeqMax(dist));
    }
  }

  /** Adding one to entry `k` adds one to the sum. */
  lemma {:induction false} SumIncrement(s: seq<int>, k: int)
    requires 0 <= k < |s|
    ensures Sum(s[k := s[k] + 1]) == Sum(s) + 1
  {
    var t := s[k := s[k] + 1];
    if k == |s| - 1 {
      assert t[..|t| - 1] == s[..|s| - 1];
    } else {
      assert t[..|t| - 1] == s[..|s| - 1][k := s[k] + 1];
      SumIncrement(s[..|s| - 1], k);
    }
  }

  /** The per-line counts add up to the number of mapped ports. */
  lemma {:induction false} DistSum(ports: seq<int>)
    ensures Sum(Dist(ports)) == MappedCount(ports)
  {
    if ports == [] {
      SumZeros(TOTAL_LINES);
      assert Dist(ports) == seq(TOTAL_LINES, _ => 0);
    } else {
      var init, last := ports[..|ports| - 1], ports[|ports| - 1];
      DistSum(init);
      if IsMapped(last) {
        var l := GetPortLine(last);
        assert Dist(ports) == Dist(init)[l := Dist(init)[l] + 1];
        SumIncrement(Dist(init), l);
      } else {
        assert Dist(ports) == Dist(init);
      }
    }
  }

  lemma {:induction false} SumZeros(n: nat)
    ensures Sum(seq(n, _ => 0)) == 0
  {
    if n > 0 {
      assert seq(n, _ => 0)[..n - 1] == seq(n - 1, _ => 0);
      SumZeros(n - 1);
    }
  }

  /** When every port is mapped, every port is counted. */
  lemma {:induction false} AllMappedCounted(ports: seq<int>)
    requires forall p :: p in ports ==> IsMapped(p)
    ensures MappedCount(ports) == |ports|
  {
    if ports != [] {
      var init := ports[..|ports| - 1];
      assert forall p :: p in init ==> p in ports;
      AllMappedCounted(init);
    }
  }

  /** A sum of `|s|` entries between `lo` and `hi` lies between `|s| * lo`
      and `|s| * hi`. */
  lemma {:induction false} SumBetween(s: seq<int>, lo: int, hi: int)
    requires forall x :: x in s ==> lo <= x <= hi
    ensures |s| * lo <= Sum(s) <= |s| * hi
  {
    if s != [] {
      var init := s[..|s| - 1];
      var last := s[|s| - 1];
      assert forall x :: x in init ==> x in s;
      SumBetween(init, lo, hi);
      assert last in s;
      assert Sum(s) == Sum(init) + last;
      assert |s| * lo == |init| * lo + lo && |s| * hi == |init| * hi + hi;
    }
  }

  /** The average of 36 counters lies between their minimum and maximum. */
  lemma SumBetweenExtremes(dist: seq<int>, lo: int, hi: int)
    requires |dist| == TOTAL_LINES
    requires forall x :: x in dist ==> lo <= x <= hi
    ensures lo as real <= Sum(dist) as real / TOTAL_LINES as real <= hi as real
  {
    SumBetween(dist, lo, hi);
  }
}

=== FILE: radar_sweep.dfy ===
/** `src/utils/radarUtils.ts`: the radar sweep controller made by
    `createRadarSweep`, the trail fade `calculateSweepFade` and the easing
    curves `RadarEasing`.

    The controller's callbacks become events that each operation returns in
    firing order, and one animation frame is one call of `Tick`.
    `requestAnimationFrame` and `cancelAnimationFrame` are not modelled, and
    neither is logging. Angles and speed are exact reals. */
module RadarSweep {
  import opened Common

  /** The callbacks, as events: `onSweepStart`, `onAngleChange(angle)`,
      `onLineReached(line, angle)`, `onSweepComplete(angle)`. */
  datatype SweepEvent =
    | SweepStarted
    | AngleChanged(angle: real)
    | LineReached(line: int, lineAngle: int)
    | SweepCompleted(angle: real)

  /** The controller's state: `RadarSweepState` plus the closure variable
      `lastTriggeredLine`. */
  datatype SweepState = SweepState(angle: real, isActive: bool, speed: real, lastTriggeredLine: int)

  /** The speed `createRadarSweep` uses when given none. */
  const DEFAULT_SPEED: real := 2.0

  /** JavaScript `Math.trunc`. */
  function Trunc(r: real): (n: int)
    ensures r >= 0.0 ==> n == r.Floor
    ensures r < 0.0 ==> r <= n as real < r + 1.0
  {
    if r >= 0.0 then r.Floor else -((-r).Floor)
  }

  /** JavaScript `%` on numbers: the remainder keeps the sign of `x`. */
  function JsRem(x: real, m: real): real
    requires m != 0.0
  {
    x - m * Trunc(x / m) as real
  }

  /** On a non-negative angle the JavaScript remainder modulo 360 is the
      usual modulus: it lies in `[0, 360)` and differs from the angle by a
      multiple of 360. */
  lemma JsRemNonNegative(x: real)
    requires x >= 0.0
    ensures 0.0 <= JsRem(x, 360.0) < 360.0
    ensures JsRem(x, 360.0) == x - 360.0 * (x / 360.0).Floor as real
  {
  }

  /** `Math.floor(angle / 10)`: the 10-degree line an angle lies on. */
  function LineOf(angle: real): int {
    (angle / 10.0).Floor
  }

  /** `animate`, one frame: an inactive sweep does nothing. An active one
      advances the angle by `speed` modulo 360 and reports it; on crossing a
      10-degree boundary, or wrapping to below 10 degrees, it reports the new
      line unless that line was the last one reported; when the new angle is
      below `speed` it reports a completed rotation and forgets the last
      line. */
  function Step(s: SweepState): (SweepState, seq<SweepEvent>) {
    if !s.isActive then (s, [])
    else
      var angle := JsRem(s.angle + s.speed, 360.0);
      var currentLine := LineOf(angle);
      var previousLine := LineOf(s.angle);
      var crossed := currentLine != previousLine || (s.angle > angle && angle < 10.0);
      var fire := crossed && currentLine != s.lastTriggeredLine;
      var complete := angle < s.speed && angle >= 0.0;
      var last := if complete then -1 else if fire then currentLine else s.lastTriggeredLine;
      (s.(angle := angle, lastTriggeredLine := last),
       [AngleChanged(angle)]
       + (if fire then [LineReached(currentLine, currentLine * 10)] else [])
       + (if complete then [SweepCompleted(angle)] else []))
  }

  /** `start`: a no-op while active; otherwise activate, report the start and
      run one frame. */
  function Started(s: SweepState): (SweepState, seq<SweepEvent>) {
    if s.isActive then (s, [])
    else
      var r := Step(s.(isActive := true));
      (r.0, [SweepStarted] + r.1)
  }

  /** The controller returned by `createRadarSweep`. */
  class RadarSweep {
    var angle: real
    var isActive: bool
    var speed: real
    var lastTriggeredLine: int

    function State(): SweepState
      reads this
    {
      SweepState(angle, isActive, speed, lastTriggeredLine)
    }

    /** `createRadarSweep(initialSpeed)`: angle 0, inactive, no line reported
        yet (pass `DEFAULT_SPEED` for the default). */
    constructor(initialSpeed: real)
      ensures State() == SweepState(0.0, false, initialSpeed, -1)
    {
      angle := 0.0;
      isActive := false;
      speed := initialSpeed;
      lastTriggeredLine := -1;
    }

    /** `animate`: one animation frame. */
    method Tick() returns (events: seq<SweepEvent>)
      modifies this
      ensures (State(), events) == Step(old(State()))
    {
      events := [];
      if !isActive {
        return;
      }
      var previousAngle := angle;
      angle := JsRem(angle + speed, 360.0);
      var currentLine := LineOf(angle);
      var previousLine := LineOf(previousAngle);
      var lineEvents: seq<SweepEvent> := [];
      if currentLine != previousLine || (previousAngle > angle && angle < 10.0) {
        if currentLine != lastTriggeredLine {
          lineEvents := [LineReached(currentLine, currentLine * 10)];
          lastTriggeredLine := currentLine;
        }
      }
      var completeEvents: seq<SweepEvent> := [];
      if angle < speed && angle >= 0.0 {
        completeEvents := [SweepCompleted(angle)];
        lastTriggeredLine := -1;
      }
      events := [AngleChanged(angle)] + lineEvents + completeEvents;
    }

    /** `start`. */
    method Start() returns (events: seq<SweepEvent>)
      modifies this
      ensures (State(), events) == Started(old(State()))
    {
      if isActive {
        events := [];
        return;
      }
      isActive := true;
      var tickEvents := Tick();
      events := [SweepStarted] + tickEvents;
    }

    /** `stop`: deactivates; angle, speed and the last line stay. */
    method Stop()
      modifies this
      ensures State() == old(State()).(isActive := false)
    {
      isActive := false;
    }

    /** `reset`: the angle goes back to 0; activity and the last reported
        line stay as they were. */
    method Reset()
      modifies this
      ensures State() == old(State()).(angle := 0.0)
    {
      angle := 0.0;
    }

    /** `setSpeed`: only the speed changes. */
    method SetSpeed(newSpeed: real)
      modifies this
      ensures State() == old(State()).(speed := newSpeed)
    {
      speed := newSpeed;
    }

    /** `getState`: a copy of angle, activity and speed. */
    method GetState() returns (angle': real, isActive': bool, speed': real)
      ensures angle' == angle && isActive' == isActive && speed' == speed
    {
      angle', isActive', speed' := angle, isActive, speed;
    }

    /** `isActive`. */
    method IsActive() returns (active: bool)
      ensures active == isActive
    {
      active := isActive;
    }
  }

  /** Starting an active sweep changes nothing and reports nothing. Starting
      an inactive one reports the start first, then exactly what one frame of
      the activated sweep reports, and ends in that frame's state. */
  lemma StartBehaviour(s: SweepState)
    ensures s.isActive ==> Started(s) == (s, [])
    ensures !s.isActive ==>
      (Started(s).1[0] == SweepStarted
       && Started(s).1[1..] == Step(s.(isActive := true)).1
       && Started(s).0 == Step(s.(isActive := true)).0
       && Started(s).0.isActive)
  {
    if !s.isActive {
      var r := Step(s.(isActive := true));
      assert ([SweepStarted] + r.1)[1..] == r.1;
    }
  }

  /** A frame of an inactive sweep changes nothing and reports nothing. */
  lemma InactiveTickIsNoop(s: SweepState)
    requires !s.isActive
    ensures Step(s) == (s, [])
  {
  }

  /** An active frame with a non-negative angle and speed: the new angle is
      `angle + speed` reduced modulo 360 into `[0, 360)`, it is reported
      first, and activity and speed are kept. */
  lemma TickAdvancesAngle(s: SweepState)
    requires s.isActive && s.angle >= 0.0 && s.speed >= 0.0
    ensures var a := Step(s).0.angle;
      0.0 <= a < 360.0
      && a == s.angle + s.speed - 360.0 * ((s.angle + s.speed) / 360.0).Floor as real
    ensures Step(s).1[0] == AngleChanged(Step(s).0.angle)
    ensures Step(s).0.isActive && Step(s).0.speed == s.speed
  {
    JsRemNonNegative(s.angle + s.speed);
  }

  /** Every line report of a frame is for the 10-degree line of the new
      angle, which lies in 0..35, at that line's angle; it happens only when
      a boundary was crossed (or the angle wrapped below 10) and the line
      differs from the last one reported. Conversely, such a crossing to a
      new line is always reported. The reported line is then remembered,
      unless the frame completes a rotation (which forgets it); a frame that
      reports nothing keeps the remembered line. */
  lemma LineReports(s: SweepState)
    requires s.isActive && s.angle >= 0.0 && s.speed >= 0.0
    ensures var a := Step(s).0.angle;
      var crossed := LineOf(a) != LineOf(s.angle) || (s.angle > a && a < 10.0);
      (forall e :: e in Step(s).1 && e.LineReached? ==>
         0 <= e.line < 36 && e.line == LineOf(a) && e.lineAngle == e.line * 10
         && crossed && e.line != s.lastTriggeredLine)
      && (crossed && LineOf(a) != s.lastTriggeredLine ==>
         LineReached(LineOf(a), LineOf(a) * 10) in Step(s).1)
    ensures var a := Step(s).0.angle;
      var crossed := LineOf(a) != LineOf(s.angle) || (s.angle > a && a < 10.0);
      Step(s).0.lastTriggeredLine
        == if 0.0 <= a < s.speed then -1
           else if crossed && LineOf(a) != s.lastTriggeredLine then LineOf(a)
           else s.lastTriggeredLine
  {
    JsRemNonNegative(s.angle + s.speed);
    var a := Step(s).0.angle;
    assert 0.0 <= a / 10.0 < 36.0;
  }

  /** The number of completed-rotation reports. */
  function Completions(events: seq<SweepEvent>): (n: nat)
    ensures n <= |events|
  {
    if events == [] then 0
    else Completions(events[..|events| - 1]) + (if events[|events| - 1].SweepCompleted? then 1 else 0)
  }

  /** The lines reported, in order. */
  function LinesReached(events: seq<SweepEvent>): (lines: seq<int>)
    ensures |lines| <= |events|
  {
    if events == [] then []
    else
      var e := events[|events| - 1];
      LinesReached(events[..|events| - 1]) + (if e.LineReached? then [e.line] else [])
  }

  lemma {:induction false} CompletionsAppend(a: seq<SweepEvent>, b: seq<SweepEvent>)
    ensures Completions(a + b) == Completions(a) + Completions(b)
  {
    if b != [] {
      assert (a + b)[..|a + b| - 1] == a + b[..|b| - 1];
      CompletionsAppend(a, b[..|b| - 1]);
    } else {
      assert a + b == a;
    }
  }

  lemma {:induction false} LinesReachedAppend(a: seq<SweepEvent>, b: seq<SweepEvent>)
    ensures LinesReached(a + b) == LinesReached(a) + LinesReached(b)
  {
    if b != [] {
      assert (a + b)[..|a + b| - 1] == a + b[..|b| - 1];
      LinesReachedAppend(a, b[..|b| - 1]);
    } else {
      assert a + b == a;
    }
  }

  /** A frame reports a completed rotation exactly when the sweep is active
      and the new angle is non-negative and below the speed, at most once,
      and the last reported line is then forgotten. */
  lemma CompletionRule(s: SweepState)
    ensures var a := Step(s).0.angle;
      var complete := s.isActive && 0.0 <= a < s.speed;
      Completions(Step(s).1) == (if complete then 1 else 0)
      && (complete ==> Step(s).0.lastTriggeredLine == -1)
  {
    if s.isActive {
      var angle := JsRem(s.angle + s.speed, 360.0);
      var currentLine := LineOf(angle);
      var crossed := currentLine != LineOf(s.angle) || (s.angle > angle && angle < 10.0);
      var fire := crossed && currentLine != s.lastTriggeredLine;
      FrameCompletions(angle, fire, currentLine, angle < s.speed && angle >= 0.0);
    }
  }

  /** The events of one frame hold a completion exactly when it completes. */
  lemma FrameCompletions(a: real, fire: bool, line: int, complete: bool)
    ensures Completions([AngleChanged(a)] + (if fire then [LineReached(line, line * 10)] else [])
                        + (if complete then [SweepCompleted(a)] else []))
      == if complete then 1 else 0
  {
    var e0 := [AngleChanged(a)];
    var e1 := e0 + (if fire then [LineReached(line, line * 10)] else []);
    assert Completions(e0) == 0 by {
      assert e0[..0] == [];
    }
    assert Completions(e1) == 0 by {
      if fire {
        assert e1[..1] == e0;
      } else {
        assert e1 == e0;
      }
    }
    if complete {
      assert (e1 + [SweepCompleted(a)])[..|e1|] == e1;
    } else {
      assert e1 + [] == e1;
    }
  }

  /** `n` animation frames in a row, with the events of all of them. */
  function Run(s: SweepState, n: nat): (SweepState, seq<SweepEvent>)
    decreases n
  {
    if n == 0 then (s, [])
    else
      var first := Step(s);
      var rest := Run(first.0, n - 1);
      (rest.0, first.1 + rest.1)
  }

  /** With a non-negative speed, the angle stays in `[0, 360)` frame after
      frame. */
  lemma {:induction false} AngleStaysInRange(s: SweepState, n: nat)
    requires 0.0 <= s.angle < 360.0 && s.speed >= 0.0
    ensures 0.0 <= Run(s, n).0.angle < 360.0 && Run(s, n).0.speed == s.speed
    decreases n
  {
    if n > 0 {
      if s.isActive {
        TickAdvancesAngle(s);
      }
      AngleStaysInRange(Step(s).0, n - 1);
    }
  }

  /** A sweep at 10 degrees per frame, at line `k` (0 <= k < 35): the next
      frame moves to line `k + 1` and reports it. */
  lemma TickAtSpeedTen(t: SweepState, k: int)
    requires 0 <= k < 35
    requires t.angle == 10.0 * k as real && t.isActive && t.speed == 10.0
    requires t.lastTriggeredLine == if k == 0 then -1 else k
    ensures Step(t)
      == (SweepState(10.0 * (k + 1) as real, true, 10.0, k + 1),
          [AngleChanged(10.0 * (k + 1) as real), LineReached(k + 1, (k + 1) * 10)])
  {
    var x := 10.0 * (k + 1) as real;
    assert t.angle + t.speed == x;
    assert (x / 360.0).Floor == 0;
    assert JsRem(x, 360.0) == x;
    assert LineOf(x) == k + 1 by {
      assert x / 10.0 == (k + 1) as real;
    }
    assert LineOf(t.angle) == k by {
      assert 10.0 * k as real / 10.0 == k as real;
    }
    assert !(x < 10.0);
    assert Step(t).0 == SweepState(x, true, 10.0, k + 1);
    assert Step(t).1 == [AngleChanged(x)] + [LineReached(k + 1, (k + 1) * 10)] + [];
    assert [AngleChanged(x)] + [LineReached(k + 1, (k + 1) * 10)] + []
      == [AngleChanged(x), LineReached(k + 1, (k + 1) * 10)];
  }

  /** The last frame of a revolution at 10 degrees per frame wraps from 350
      to 0, reports line 0 and a completed rotation, and forgets the line. */
  lemma WrapAtSpeedTen(t: SweepState)
    requires t.angle == 350.0 && t.isActive && t.speed == 10.0 && t.lastTriggeredLine == 35
    ensures Step(t)
      == (SweepState(0.0, true, 10.0, -1), [AngleChanged(0.0), LineReached(0, 0), SweepCompleted(0.0)])
  {
    assert t.angle + t.speed == 360.0;
    assert (360.0 / 360.0).Floor == 1;
    assert JsRem(360.0, 360.0) == 0.0;
    assert LineOf(350.0) == 35;
    assert LineOf(0.0) == 0;
    assert Step(t).1 == [AngleChanged(0.0)] + [LineReached(0, 0)] + [SweepCompleted(0.0)];
    assert [AngleChanged(0.0)] + [LineReached(0, 0)] + [SweepCompleted(0.0)]
      == [AngleChanged(0.0), LineReached(0, 0), SweepCompleted(0.0)];
  }

  /** The events of one frame followed by those of the frames after it. */
  lemma RunSplit(t: SweepState, n: nat, lines: seq<int>, completions: nat)
    requires n > 0
    requires LinesReached(Run(Step(t).0, n - 1).1) == lines
    requires Completions(Run(Step(t).0, n - 1).1) == completions
    ensures Run(t, n).0 == Run(Step(t).0, n - 1).0
    ensures LinesReached(Run(t, n).1) == LinesReached(Step(t).1) + lines
    ensures Completions(Run(t, n).1) == Completions(Step(t).1) + completions
  {
    LinesReachedAppend(Step(t).1, Run(Step(t).0, n - 1).1);
    CompletionsAppend(Step(t).1, Run(Step(t).0, n - 1).1);
  }

  /** The frame from line `k < 35` at 10 degrees per frame reports line
      `k + 1` and no completion. */
  lemma NextLineFrame(t: SweepState, k: int)
    requires 0 <= k < 35
    requires t.angle == 10.0 * k as real && t.isActive && t.speed == 10.0
    requires t.lastTriggeredLine == if k == 0 then -1 else k
    ensures Step(t).0 == SweepState(10.0 * (k + 1) as real, true, 10.0, k + 1)
    ensures LinesReached(Step(t).1) == [k + 1] && Completions(Step(t).1) == 0
  {
    TickAtSpeedTen(t, k);
    var ev := Step(t).1;
    assert ev[..1][..0] == [] && ev[..1] == [AngleChanged(10.0 * (k + 1) as real)];
  }

  /** The frame from line 35 at 10 degrees per frame wraps to 0, reports
      line 0 and one completion. */
  lemma LastLineFrame(t: SweepState)
    requires t.angle == 350.0 && t.isActive && t.speed == 10.0 && t.lastTriggeredLine == 35
    ensures Step(t).0 == SweepState(0.0, true, 10.0, -1)
    ensures LinesReached(Step(t).1) == [0] && Completions(Step(t).1) == 1
  {
    WrapAtSpeedTen(t);
    var ev := Step(t).1;
    assert ev[..2][..1][..0] == [] && ev[..2][..1] == [AngleChanged(0.0)] && ev[..2] == ev[..2][..1] + [LineReached(0, 0)];
  }

  /** The rest of a revolution at 10 degrees per frame from line `k`: the
      remaining `n = 36 - k` frames report lines `k + 1`, ..., 35 and then 0,
      complete one rotation, and end at angle 0 with no line remembered. */
  lemma {:induction false} RestOfRevolution(t: SweepState, k: int, n: nat)
    requires 0 <= k <= 35 && n == 36 - k
    requires t.angle == 10.0 * k as real && t.isActive && t.speed == 10.0
    requires t.lastTriggeredLine == if k == 0 then -1 else k
    ensures Run(t, n).0 == SweepState(0.0, true, 10.0, -1)
    ensures LinesReached(Run(t, n).1) == Interval(k + 1, 35) + [0]
    ensures Completions(Run(t, n).1) == 1
    decreases n
  {
    if k == 35 {
      LastLineFrame(t);
      RunSplit(t, n, [], 0);
      assert Interval(36, 35) == [];
    } else {
      NextLineFrame(t, k);
      RestOfRevolution(Step(t).0, k + 1, n - 1);
      RunSplit(t, n, Interval(k + 2, 35) + [0], 1);
      LinesFrom(k);
    }
  }

  /** Line `k + 1` followed by the lines after it and then 0. */
  lemma LinesFrom(k: int)
    requires 0 <= k < 35
    ensures [k + 1] + (Interval(k + 2, 35) + [0]) == Interval(k + 1, 35) + [0]
  {
    IntervalCons(k + 1, 35);
    assert [k + 1] + (Interval(k + 2, 35) + [0]) == ([k + 1] + Interval(k + 2, 35)) + [0];
  }

  /** Frames in one revolution at 10 degrees per frame. */
  const FRAMES_PER_TURN: nat := 36

  /** A full revolution: from angle 0 with no line reported yet, 36 frames
      at 10 degrees per frame report lines 1, 2, ..., 35 and then 0, one
      completed rotation, and end in the starting state. */
  lemma FullRevolution(s: SweepState)
    requires s.angle == 0.0 && s.isActive && s.speed == 10.0 && s.lastTriggeredLine == -1
    ensures Run(s, FRAMES_PER_TURN).0 == s
    ensures LinesReached(Run(s, FRAMES_PER_TURN).1) == Interval(1, 35) + [0]
    ensures Completions(Run(s, FRAMES_PER_TURN).1) == 1
  {
    RestOfRevolution(s, 0, FRAMES_PER_TURN);
  }

  /** The angular distance from `target` to `current`, folded into
      `[0, 180]` as `calculateSweepFade` computes it. */
  function FoldedDiff(current: real, target: real): real {
    var diff := current - target;
    var diff' := if diff < 0.0 then diff + 360.0 else diff;
    if diff' > 180.0 then 360.0 - diff' else diff'
  }

  function Abs(x: real): real {
    if x < 0.0 then -x else x
  }

  function Max(a: real, b: real): real {
    if a >= b then a else b
  }

  /** `calculateSweepFade`: full opacity on the sweep, fading linearly to 0
      at `trailLength` degrees away, 0 beyond. */
  function CalculateSweepFade(currentAngle: real, targetAngle: real, trailLength: real): real
    requires trailLength != 0.0 || FoldedDiff(currentAngle, targetAngle) > 0.0
  {
    var diff := FoldedDiff(currentAngle, targetAngle);
    if diff <= trailLength then Max(0.0, 1.0 - diff / trailLength) else 0.0
  }

  /** For angles in `[0, 360)` the folded difference is the shorter way
      round the circle, so it lies in `[0, 180]` and does not depend on the
      order of the two angles. */
  lemma FoldedDiffIsShorterArc(a: real, b: real)
    requires 0.0 <= a < 360.0 && 0.0 <= b < 360.0
    ensures var d := Abs(a - b);
      FoldedDiff(a, b) == (if d <= 180.0 then d else 360.0 - d)
    ensures 0.0 <= FoldedDiff(a, b) <= 180.0
    ensures FoldedDiff(a, b) == FoldedDiff(b, a)
    ensures FoldedDiff(a, b) == 0.0 <==> a == b
  {
  }

  /** For angles in `[0, 360)` and a positive trail the fade is an opacity
      in `[0, 1]`; it is 1 exactly on the sweep, 0 once the folded distance
      exceeds the trail, symmetric in the two angles, and never grows with
      the distance. */
  /** With no trail, any angle off the sweep is fully faded. */
  lemma FadeZeroTrail(a: real, b: real)
    requires 0.0 <= a < 360.0 && 0.0 <= b < 360.0 && a != b
    ensures CalculateSweepFade(a, b, 0.0) == 0.0
  {
    FoldedDiffIsShorterArc(a, b);
  }

  lemma FadeProperties(a: real, b: real, c: real, trailLength: real)
    requires 0.0 <= a < 360.0 && 0.0 <= b < 360.0 && 0.0 <= c < 360.0 && trailLength > 0.0
    ensures 0.0 <= CalculateSweepFade(a, b, trailLength) <= 1.0
    ensures CalculateSweepFade(a, b, trailLength) == 1.0 <==> a == b
    ensures FoldedDiff(a, b) > trailLength ==> CalculateSweepFade(a, b, trailLength) == 0.0
    ensures CalculateSweepFade(a, b, trailLength) == CalculateSweepFade(b, a, trailLength)
    ensures FoldedDiff(a, b) <= FoldedDiff(a, c) ==>
      CalculateSweepFade(a, c, trailLength) <= CalculateSweepFade(a, b, trailLength)
  {
    FoldedDiffIsShorterArc(a, b);
    FoldedDiffIsShorterArc(a, c);
    var d, e := FoldedDiff(a, b), FoldedDiff(a, c);
    if d <= trailLength {
      DivMonotone(0.0, d, trailLength);
      DivMonotone(d, trailLength, trailLength);
      assert d / trailLength * trailLength == d;
    }
    if d <= e && e <= trailLength {
      DivMonotone(d, e, trailLength);
    }
  }

  /** Dividing by a positive number keeps the order. */
  lemma DivMonotone(x: real, y: real, t: real)
    requires t > 0.0 && x <= y
    ensures x / t <= y / t
  {
    var q, r := x / t, y / t;
    assert q * t == x && r * t == y;
    assert (r - q) * t == y - x;
  }

  /** `RadarEasing`. */
  function Linear(t: real): real { t }
  function EaseIn(t: real): real { t * t }
  function EaseOut(t: real): real { t * (2.0 - t) }
  function EaseInOut(t: real): real {
    if t < 0.5 then 2.0 * t * t else -1.0 + (4.0 - 2.0 * t) * t
  }

  /** Every easing fixes 0 and 1, and `easeInOut` gives 0.5 at 0.5. */
  lemma EasingEndpoints()
    ensures Linear(0.0) == 0.0 && Linear(1.0) == 1.0
    ensures EaseIn(0.0) == 0.0 && EaseIn(1.0) == 1.0
    ensures EaseOut(0.0) == 0.0 && EaseOut(1.0) == 1.0
    ensures EaseInOut(0.0) == 0.0 && EaseInOut(1.0) == 1.0
    ensures EaseInOut(0.5) == 0.5
  {
  }

  /** The first half of `easeInOut` stays below 0.5 and approaches it as
      `t` approaches 0.5, so the two halves meet there without a jump. */
  lemma EaseInOutHalvesMeet(t: real)
    requires 0.0 <= t < 0.5
    ensures EaseInOut(t) < 0.5
    ensures 0.5 - EaseInOut(t) <= 2.0 * (0.5 - t)
  {
    SquareBelow(t, 0.5);
    var a, b := 0.5 - t, 0.5 + t;
    assert 0.5 - 2.0 * t * t == 2.0 * a * b;
    assert a * b <= a * 1.0;
  }

  /** A square of `x` in `[0, c]` lies between 0 and `c x`. */
  lemma SquareBelow(x: real, c: real)
    requires 0.0 <= x <= c
    ensures 0.0 <= x * x <= c * x
  {
    assert x * (c - x) >= 0.0;
  }

  /** On `[0, 1]` every easing stays in `[0, 1]`. */
  lemma EasingBounds(t: real)
    requires 0.0 <= t <= 1.0
    ensures 0.0 <= Linear(t) <= 1.0
    ensures 0.0 <= EaseIn(t) <= 1.0
    ensures 0.0 <= EaseOut(t) <= 1.0
    ensures 0.0 <= EaseInOut(t) <= 1.0
  {
    var u := 1.0 - t;
    SquareBelow(t, 1.0);
    SquareBelow(u, 1.0);
    assert EaseOut(t) == 1.0 - u * u;
    if t < 0.5 {
      assert EaseInOut(t) == 2.0 * (t * t);
      SquareBelow(t, 0.5);
      assert 0.0 <= t * t <= 0.25;
    } else {
      assert EaseInOut(t) == 1.0 - 2.0 * (u * u);
      SquareBelow(u, 0.5);
      assert 0.0 <= u * u <= 0.25;
    }
  }
}

=== FILE: scanner_logic.dfy ===
/** The decisions of `src/services/portScanner.ts`, without the network: the
    outcome rule of `testPort`, the classifier `detectServiceType`, the
    progress arithmetic, the batch slicing of `scanPorts` and the candidate
    list of `quickScan`.

    What the network answers is an input. For each probed URL the model is
    told how the `HEAD` fetch ended (response, abort after some elapsed
    milliseconds, or another error) and what the detection `GET` fetch
    returned (headers and body, or an error). */
module ScannerLogic {
  import opened Common
  import opened PortTypes
  import opened Config

  /** How a `HEAD` fetch of one URL ended; `elapsed` is `Date.now() -
      startTime` at that moment, in milliseconds. */
  datatype FetchOutcome =
    | Responded(elapsed: int)
    | Aborted(elapsed: int)   // an `AbortError`
    | Failed                  // any other error

  /** What the detection `GET` fetch gave. Header names are lower-case, as
      `Headers.get` matches them without regard to case; `body` is `None`
      when reading the text failed. */
  datatype Detection =
    | DetectionFailed
    | Fetched(headers: map<string, string>, body: Option<string>)

  datatype UrlAttempt = UrlAttempt(head: FetchOutcome, detection: Detection)

  /** The two URLs `testPort` tries, `http://localhost:<port>` first. */
  datatype Probe = Probe(http: UrlAttempt, https: UrlAttempt)

  /** What the network answers for a port probed with a timeout. */
  type Network = (int, int) -> Probe

  const DEFAULT_TIMEOUT: int := 3000
  const DEFAULT_MAX_CONCURRENT: int := 5
  const QUICK_SCAN_BATCH: int := 3
  const QUICK_SCAN_TIMEOUT: int := 2000
  const RANGE_SCAN_TIMEOUT: int := 1500
  const TIMEOUT_ERROR: string := "Timeout (service may be running)"

  // ---------------------------------------------------------------------
  // detectServiceType

  /** `headers.get(name)` is a non-empty string. */
  predicate HeaderSet(headers: map<string, string>, name: string) {
    name in headers && headers[name] != ""
  }

  /** `headers.get(name)?.toLowerCase() || ''`. */
  function HeaderLower(headers: map<string, string>, name: string): string {
    if name in headers then ToLower(headers[name]) else ""
  }

  /** The lower-cased body, or `''` when it could not be read. */
  function Content(body: Option<string>): string {
    if body.Some? then ToLower(body.value) else ""
  }

  /** The classifier's rules, in the order they are tried. */
  datatype Rule = ViteRule | ReactRule | NextRule | ExpressRule | WebpackRule | StaticRule | AdminRule

  const RULES: seq<Rule> := [ViteRule, ReactRule, NextRule, ExpressRule, WebpackRule, StaticRule, AdminRule]

  /** Whether a rule fires on a fetched response. */
  predicate Fires(rule: Rule, port: int, headers: map<string, string>, content: string) {
    var server := HeaderLower(headers, "server");
    var poweredBy := HeaderLower(headers, "x-powered-by");
    match rule
    case ViteRule =>
      HeaderSet(headers, "x-vite") || Contains(content, "vite") || Contains(content, "/@vite/")
    case ReactRule =>
      Contains(content, "react") && (Contains(content, "development") || 3000 <= port <= 3010)
    case NextRule =>
      HeaderSet(headers, "x-nextjs-page") || Contains(content, "_next") || Contains(content, "next.js")
    case ExpressRule =>
      Contains(poweredBy, "express") || Contains(server, "express")
    case WebpackRule =>
      Contains(content, "webpack") && Contains(content, "dev")
    case StaticRule =>
      Contains(server, "nginx") || Contains(server, "apache")
    case AdminRule =>
      Contains(content, "phpmyadmin") || Contains(content, "adminer")
  }

  function RuleService(rule: Rule): ServiceType {
    match rule
    case ViteRule => ViteDev
    case ReactRule => ReactDev
    case NextRule => NextJs
    case ExpressRule => ExpressApi
    case WebpackRule => WebpackDev
    case StaticRule => StaticServer
    case AdminRule => DatabaseAdmin
  }

  /** The guess from the port number alone, used when the detection fetch
      throws: 3000 and 3001 are React, 5173 is Vite, 8080 is Express, 4000 is
      a static server, anything else is unknown. */
  function FallbackServiceType(port: int): (t: ServiceType)
    ensures t == ReactDev <==> port == 3000 || port == 3001
    ensures t == ViteDev <==> port == 5173
    ensures t == ExpressApi <==> port == 8080
    ensures t == StaticServer <==> port == 4000
    ensures t == Unknown <==> port !in {3000, 3001, 5173, 8080, 4000}
  {
    if port == 3000 || port == 3001 then ReactDev
    else if port == 5173 then ViteDev
    else if port == 8080 then ExpressApi
    else if port == 4000 then StaticServer
    else Unknown
  }

  /** `detectServiceType`: on macOS the AirPlay ports are classified from
      `MACOS_SYSTEM_PORTS` without a fetch; otherwise the first rule that
      fires on the response decides, `unknown` when none does, and the port
      fallback applies when the fetch throws. */
  function DetectServiceType(platform: Platform, port: int, detection: Detection): (t: ServiceType)
    ensures platform == Darwin && port in MACOS_SYSTEM_PORTS ==> t == AirplayReceiver
    ensures t == AirplayReceiver ==> platform == Darwin && port in {5000, 7000}
    ensures !(platform == Darwin && port in MACOS_SYSTEM_PORTS) && detection.DetectionFailed? ==>
      t == FallbackServiceType(port)
  {
    if platform == Darwin && port in MACOS_SYSTEM_PORTS then MACOS_SYSTEM_PORTS[port]
    else
      match detection
      case DetectionFailed => FallbackServiceType(port)
      case Fetched(headers, body) =>
        var content := Content(body);
        if Fires(ViteRule, port, headers, content) then ViteDev
        else if Fires(ReactRule, port, headers, content) then ReactDev
        else if Fires(NextRule, port, headers, content) then NextJs
        else if Fires(ExpressRule, port, headers, content) then ExpressApi
        else if Fires(WebpackRule, port, headers, content) then WebpackDev
        else if Fires(StaticRule, port, headers, content) then StaticServer
        else if Fires(AdminRule, port, headers, content) then DatabaseAdmin
        else Unknown
  }

  /** The service of the first rule in `rules` that fires, `unknown` if none
      does: an ordered rule list read first-match-wins. */
  function FirstMatch(rules: seq<Rule>, port: int, headers: map<string, string>, content: string): ServiceType {
    if rules == [] then Unknown
    else if Fires(rules[0], port, headers, content) then RuleService(rules[0])
    else FirstMatch(rules[1..], port, headers, content)
  }

  /** `FirstMatch` gives `unknown` exactly when no rule fires, and otherwise
      the service of a rule that fires with no firing rule before it. */
  lemma {:induction false} FirstMatchSpec(rules: seq<Rule>, port: int, headers: map<string, string>, content: string)
    ensures var t := FirstMatch(rules, port, headers, content);
      (t == Unknown <==> forall i :: 0 <= i < |rules| ==> !Fires(rules[i], port, headers, content))
      && (t != Unknown ==>
        exists i :: (0 <= i < |rules| && Fires(rules[i], port, headers, content)
          && t == RuleService(rules[i]) && forall j :: 0 <= j < i ==> !Fires(rules[j], port, headers, content)))
  {
    if rules != [] && !Fires(rules[0], port, headers, content) {
      FirstMatchSpec(rules[1..], port, headers, content);
      assert forall i :: 0 < i < |rules| ==> rules[i] == rules[1..][i - 1];
      var t := FirstMatch(rules, port, headers, content);
      if t != Unknown {
        var i :| 0 <= i < |rules[1..]| && Fires(rules[1..][i], port, headers, content)
          && t == RuleService(rules[1..][i]) && forall j :: 0 <= j < i ==> !Fires(rules[1..][j], port, headers, content);
        assert rules[i + 1] == rules[1..][i];
      }
    }
  }

  /** The classifier applies `RULES` first-match-wins to a fetched response
      when the macOS shortcut does not apply. */
  lemma DetectIsFirstMatch(platform: Platform, port: int, headers: map<string, string>, body: Option<string>)
    requires !(platform == Darwin && port in MACOS_SYSTEM_PORTS)
    ensures DetectServiceType(platform, port, Fetched(headers, body))
      == FirstMatch(RULES, port, headers, Content(body))
  {
    var c := Content(body);
    FirstMatchStep(RULES, 0, port, headers, c);
    FirstMatchStep(RULES, 1, port, headers, c);
    FirstMatchStep(RULES, 2, port, headers, c);
    FirstMatchStep(RULES, 3, port, headers, c);
    FirstMatchStep(RULES, 4, port, headers, c);
    FirstMatchStep(RULES, 5, port, headers, c);
    FirstMatchStep(RULES, 6, port, headers, c);
    assert RULES[7..] == [] && RULES[0..] == RULES;
  }

  lemma FirstMatchStep(rules: seq<Rule>, k: int, port: int, headers: map<string, string>, content: string)
    requires 0 <= k < |rules|
    ensures FirstMatch(rules[k..], port, headers, content)
      == if Fires(rules[k], port, headers, content) then RuleService(rules[k])
         else FirstMatch(rules[k + 1..], port, headers, content)
  {
    assert rules[k..][0] == rules[k] && rules[k..][1..] == rules[k + 1..];
  }

  /** Vite is tried first: any Vite sign wins over every later rule, and a
      React page is only reported when it mentions "react". */
  lemma RuleOrder(platform: Platform, port: int, headers: map<string, string>, body: Option<string>)
    requires !(platform == Darwin && port in MACOS_SYSTEM_PORTS)
    ensures Contains(Content(body), "vite") ==> DetectServiceType(platform, port, Fetched(headers, body)) == ViteDev
    ensures DetectServiceType(platform, port, Fetched(headers, body)) == ReactDev ==>
      Contains(Content(body), "react") && !Contains(Content(body), "vite")
    ensures DetectServiceType(platform, port, Fetched(headers, body)) == Unknown <==>
      forall r :: r in RULES ==> !Fires(r, port, headers, Content(body))
  {
    DetectIsFirstMatch(platform, port, headers, body);
    FirstMatchSpec(RULES, port, headers, Content(body));
  }

  // ---------------------------------------------------------------------
  // testPort

  /** A URL attempt that settles the outcome: a response, or an abort after
      at least 90% of the timeout (`responseTime >= timeout * 0.9`). */
  predicate Decisive(a: UrlAttempt, timeout: int) {
    a.head.Responded? || (a.head.Aborted? && 10 * a.head.elapsed >= 9 * timeout)
  }

  /** The result a decisive attempt gives. */
  function Settled(platform: Platform, port: int, timeout: int, a: UrlAttempt): (r: ServiceStatus)
    requires Decisive(a, timeout)
    ensures r.port == port && r.status == Online
    ensures a.head.Responded? ==>
      r.responseTime == Some(a.head.elapsed) && r.error.None?
      && r.serviceType == DetectServiceType(platform, port, a.detection)
    ensures a.head.Aborted? ==>
      r.responseTime == Some(timeout) && r.serviceType == Unknown && r.error == Some(TIMEOUT_ERROR)
  {
    if a.head.Responded? then
      ServiceStatus(port, Online, Some(a.head.elapsed), DetectServiceType(platform, port, a.detection), None)
    else
      ServiceStatus(port, Online, Some(timeout), Unknown, Some(TIMEOUT_ERROR))
  }

  /** The loop of `testPort` over its URLs: the first decisive attempt gives
      the result; when none is decisive the port is offline, `unknown`, with
      no response time and no error. */
  function TryUrls(platform: Platform, port: int, timeout: int, attempts: seq<UrlAttempt>): (r: ServiceStatus)
    ensures r.port == port
    ensures r.status == Online || r.status == Offline
    ensures r.status == Online <==> exists i :: 0 <= i < |attempts| && Decisive(attempts[i], timeout)
    ensures r.status == Offline ==> r.serviceType == Unknown && r.responseTime.None? && r.error.None?
  {
    if attempts == [] then ServiceStatus(port, Offline, None, Unknown, None)
    else if Decisive(attempts[0], timeout) then Settled(platform, port, timeout, attempts[0])
    else
      var r := TryUrls(platform, port, timeout, attempts[1..]);
      assert forall i :: 0 < i < |attempts| ==> attempts[i] == attempts[1..][i - 1];
      r
  }

  /** The first decisive attempt decides. */
  lemma {:induction false} FirstDecisiveWins(platform: Platform, port: int, timeout: int,
                                             attempts: seq<UrlAttempt>, k: int)
    requires 0 <= k < |attempts| && Decisive(attempts[k], timeout)
    requires forall j :: 0 <= j < k ==> !Decisive(attempts[j], timeout)
    ensures TryUrls(platform, port, timeout, attempts) == Settled(platform, port, timeout, attempts[k])
  {
    if k > 0 {
      assert attempts[1..][k - 1] == attempts[k];
      FirstDecisiveWins(platform, port, timeout, attempts[1..], k - 1);
    }
  }

  /** `testPort(port, timeout)`: http first, then https. */
  function TestPort(platform: Platform, port: int, timeout: int, probe: Probe): (r: ServiceStatus)
    ensures r.port == port
    ensures Decisive(probe.http, timeout) ==> r == Settled(platform, port, timeout, probe.http)
    ensures !Decisive(probe.http, timeout) && Decisive(probe.https, timeout) ==>
      r == Settled(platform, port, timeout, probe.https)
    ensures !Decisive(probe.http, timeout) && !Decisive(probe.https, timeout) ==>
      r == ServiceStatus(port, Offline, None, Unknown, None)
  {
    var attempts := [probe.http, probe.https];
    if !Decisive(probe.http, timeout) && Decisive(probe.https, timeout) then
      FirstDecisiveWins(platform, port, timeout, attempts, 1);
      TryUrls(platform, port, timeout, attempts)
    else
      assert attempts[1..] == [probe.https] && attempts[1..][1..] == [];
      TryUrls(platform, port, timeout, attempts)
  }

  /** The results of probing `ports` in order: one per port, each about
      its own port. */
  function Statuses(platform: Platform, net: Network, ports: seq<int>, timeout: int): (r: seq<ServiceStatus>)
    ensures |r| == |ports|
    ensures forall i :: 0 <= i < |ports| ==> r[i].port == ports[i]
  {
    var r := seq(|ports|, i requires 0 <= i < |ports| => TestPort(platform, ports[i], timeout, net(ports[i], timeout)));
    assert forall i :: 0 <= i < |ports| ==> r[i] == TestPort(platform, ports[i], timeout, net(ports[i], timeout));
    r
  }

  /** The `i`th result is the probe of the `i`th port. */
  lemma StatusesAt(platform: Platform, net: Network, ports: seq<int>, timeout: int, i: int)
    requires 0 <= i < |ports|
    ensures Statuses(platform, net, ports, timeout)[i] == TestPort(platform, ports[i], timeout, net(ports[i], timeout))
  {
  }

  /** Probing one more port appends its result. */
  lemma StatusesSnoc(platform: Platform, net: Network, a: seq<int>, p: int, timeout: int)
    ensures Statuses(platform, net, a + [p], timeout)
      == Statuses(platform, net, a, timeout) + [TestPort(platform, p, timeout, net(p, timeout))]
  {
    var x := Statuses(platform, net, a + [p], timeout);
    var y := Statuses(platform, net, a, timeout) + [TestPort(platform, p, timeout, net(p, timeout))];
    forall i | 0 <= i < |x| ensures x[i] == y[i] {
      assert (a + [p])[i] == if i < |a| then a[i] else p;
    }
  }

  /** Probing two lists one after the other is probing their concatenation. */
  lemma StatusesAppend(platform: Platform, net: Network, a: seq<int>, b: seq<int>, timeout: int)
    ensures Statuses(platform, net, a + b, timeout)
      == Statuses(platform, net, a, timeout) + Statuses(platform, net, b, timeout)
  {
    var x := Statuses(platform, net, a + b, timeout);
    var y := Statuses(platform, net, a, timeout) + Statuses(platform, net, b, timeout);
    forall i | 0 <= i < |x| ensures x[i] == y[i] {
      assert (a + b)[i] == if i < |a| then a[i] else b[i - |a|];
    }
  }

  /** The `Port` record `scanPorts` makes of a result: listening iff
      online, closed otherwise, always TCP. */
  function Entries(statuses: seq<ServiceStatus>): (r: seq<PortEntry>)
    ensures |r| == |statuses|
    ensures forall i :: 0 <= i < |r| ==>
      r[i].port == statuses[i].port && r[i].protocol == Tcp
      && (r[i].state == Listen <==> statuses[i].status == Online)
      && (r[i].state == Closed <==> statuses[i].status != Online)
  {
    seq(|statuses|, i requires 0 <= i < |statuses| =>
      PortEntry(statuses[i].port, if statuses[i].status == Online then Listen else Closed, Tcp))
  }

  // ---------------------------------------------------------------------
  // Progress

  /** `Math.round((completed / total) * 100)` on exact rationals: 100·c/t
      rounded half up, the floor of `100 c / t + 1/2`. The source computes
      it in binary floating point, where some exact halves come out just
      below one half (23 of 40 gives 57 there, 58 here). */
  function Percentage(completed: int, total: int): int
    requires total > 0
  {
    (200 * completed + total) / (2 * total)
  }

  /** The percentage is the nearest integer to `100 c / t`, halves rounded
      up: `p - 1/2 <= 100 c / t < p + 1/2`. */
  lemma PercentageRounds(c: int, t: int)
    requires t > 0
    ensures 2 * t * Percentage(c, t) - t <= 200 * c < 2 * t * Percentage(c, t) + t
  {
    var n, d := 200 * c + t, 2 * t;
    var q, r := n / d, n % d;
    assert n == d * q + r && 0 <= r < d;
    assert Percentage(c, t) == q;
  }

  lemma MulLe(a: int, b: int, t: int)
    requires a <= b && t > 0
    ensures t * a <= t * b
  {
    assert t * b - t * a == t * (b - a);
  }

  /** For `0 <= c <= t` the percentage lies in 0..100. */
  lemma PercentageBounds(c: int, t: int)
    requires t > 0 && 0 <= c <= t
    ensures 0 <= Percentage(c, t) <= 100
  {
    var p := Percentage(c, t);
    PercentageRounds(c, t);
    if p < 0 {
      MulLe(p, -1, t);
      assert false;
    }
    if p > 100 {
      MulLe(101, p, t);
      MulLe(c, t, 200);
      assert false;
    }
  }

  /** More probes done never lowers the percentage. */
  lemma PercentageMonotone(c: int, d: int, t: int)
    requires t > 0 && c <= d
    ensures Percentage(c, t) <= Percentage(d, t)
  {
    var p, q := Percentage(c, t), Percentage(d, t);
    PercentageRounds(c, t);
    PercentageRounds(d, t);
    if p > q {
      MulLe(q + 1, p, 2 * t);
      assert false;
    }
  }

  /** All probes done is 100%. */
  lemma PercentageFull(t: int)
    requires t > 0
    ensures Percentage(t, t) == 100
  {
    DivUnique(200 * t + t, 2 * t, 100, t);
  }

  /** Division is determined by quotient and remainder: `n == d q + r` with
      `0 <= r < d` gives `n / d == q`. */
  lemma DivUnique(n: int, d: int, q: int, r: int)
    requires d > 0 && 0 <= r < d && n == d * q + r
    ensures n / d == q
  {
    var q', r' := n / d, n % d;
    assert n == d * q' + r' && 0 <= r' < d;
    assert d * (q - q') == r' - r;
    if q - q' >= 1 {
      MulLe(1, q - q', d);
      assert false;
    } else if q - q' <= -1 {
      MulLe(q - q', -1, d);
      assert false;
    }
  }

  /** The report after the `completed`-th probe, of port `port`. */
  function Report(completed: int, total: int, port: int): ScanProgress
    requires 0 < completed <= total
  {
    ScanProgress(completed, total, port, Percentage(completed, total), completed == total)
  }

  /** The reports of probing `ports` after `before` probes already done. */
  function ReportsFrom(ports: seq<int>, before: nat, total: int): (r: seq<ScanProgress>)
    requires before + |ports| <= total
    ensures |r| == |ports|
    ensures forall i :: 0 <= i < |ports| ==>
      r[i].current == before + i + 1 && r[i].total == total && r[i].currentPort == ports[i]
      && r[i].percentage == Percentage(before + i + 1, total)
      && (r[i].isComplete <==> before + i + 1 == total)
  {
    seq(|ports|, i requires 0 <= i < |ports| => Report(before + i + 1, total, ports[i]))
  }

  /** Probing one more port appends its report. */
  lemma ReportsFromSnoc(a: seq<int>, p: int, before: nat, total: int)
    requires before + |a| + 1 <= total
    ensures ReportsFrom(a + [p], before, total) == ReportsFrom(a, before, total) + [Report(before + |a| + 1, total, p)]
  {
    var x := ReportsFrom(a + [p], before, total);
    var y := ReportsFrom(a, before, total) + [Report(before + |a| + 1, total, p)];
    assert |x| == |y|;
    forall i | 0 <= i < |x| ensures x[i] == y[i] {
      assert (a + [p])[i] == if i < |a| then a[i] else p;
    }
  }

  /** The reports of a scan of `total` ports whose first probes were of `ports`. */
  function Reports(ports: seq<int>, total: int): seq<ScanProgress>
    requires |ports| <= total
  {
    ReportsFrom(ports, 0, total)
  }

  lemma ReportsAppend(a: seq<int>, b: seq<int>, total: int)
    requires |a| + |b| <= total
    ensures Reports(a + b, total) == Reports(a, total) + ReportsFrom(b, |a|, total)
  {
  }

  /** Reports count up by one from 1; only a report of the last of `total`
      probes is complete, and a full scan's last report is complete at 100%. */
  lemma ReportsCountUp(ports: seq<int>, total: int)
    requires |ports| <= total
    ensures forall i :: 0 <= i < |ports| ==> Reports(ports, total)[i].current == i + 1
    ensures forall i :: 0 < i < |ports| ==>
      Reports(ports, total)[i].current == Reports(ports, total)[i - 1].current + 1
    ensures forall i :: 0 <= i < |ports| ==>
      (Reports(ports, total)[i].isComplete <==> i == total - 1)
    ensures |ports| == total > 0 ==>
      Reports(ports, total)[total - 1].isComplete && Reports(ports, total)[total - 1].percentage == 100
  {
    if |ports| == total > 0 {
      PercentageFull(total);
    }
  }

  // ---------------------------------------------------------------------
  // Batches

  function Flatten<T>(bs: seq<seq<T>>): seq<T> {
    if bs == [] then [] else bs[0] + Flatten(bs[1..])
  }

  lemma {:induction false} FlattenSnoc<T>(bs: seq<seq<T>>, b: seq<T>)
    ensures Flatten(bs + [b]) == Flatten(bs) + b
  {
    if bs == [] {
      assert [b][1..] == [];
    } else {
      assert (bs + [b])[1..] == bs[1..] + [b];
      FlattenSnoc(bs[1..], b);
    }
  }

  function Min(a: int, b: int): int {
    if a <= b then a else b
  }

  /** `s.slice(i, i + size)` for `i = 0, size, 2 size, ...`. */
  function Batches<T>(s: seq<T>, size: int): seq<seq<T>>
    requires size > 0
    decreases |s|
  {
    if s == [] then []
    else if |s| <= size then [s]
    else [s[..size]] + Batches(s[size..], size)
  }

  /** The batches are non-empty consecutive slices of `size` elements, the
      last possibly shorter, which together give back `s` in order. */
  lemma {:induction false} BatchesPartition<T>(s: seq<T>, size: int)
    requires size > 0
    ensures var bs := Batches(s, size);
      Flatten(bs) == s
      && (forall k :: 0 <= k < |bs| ==> 0 < |bs[k]| <= size)
      && (forall k :: 0 <= k < |bs| - 1 ==> |bs[k]| == size)
    decreases |s|
  {
    if |s| <= size {
      if s != [] {
        assert [s][1..] == [];
      }
    } else {
      var rest := Batches(s[size..], size);
      BatchesPartition(s[size..], size);
      assert ([s[..size]] + rest)[1..] == rest;
      assert s == s[..size] + s[size..];
    }
  }

  /** Batch `k` is the slice starting at `k * size`. */
  lemma {:induction false} BatchAt<T>(s: seq<T>, size: int, k: nat)
    requires size > 0 && k * size < |s|
    ensures k < |Batches(s, size)|
    ensures Batches(s, size)[k] == s[k * size..Min(k * size + size, |s|)]
    decreases k
  {
    var j := k * size;
    if k > 0 {
      var j' := (k - 1) * size;
      assert j == j' + size && j' >= 0 by {
        MulLe(0, k - 1, size);
      }
      var rest := Batches(s[size..], size);
      assert Batches(s, size) == [s[..size]] + rest;
      BatchAt(s[size..], size, k - 1);
      var e := Min(j + size, |s|);
      assert rest[k - 1] == s[size..][j'..e - size];
      assert s[size..][j'..e - size] == s[j..e];
    } else {
      assert j == 0 by {
        assert k == 0;
      }
    }
  }

  // ---------------------------------------------------------------------
  // The quickScan candidates

  /** Append each port of `ports` that `acc` does not hold yet (the test is
      against the list as it grows). */
  function AddMissing(acc: seq<int>, ports: seq<int>): seq<int>
    decreases |ports|
  {
    if ports == [] then acc
    else
      var before := AddMissing(acc, ports[..|ports| - 1]);
      var p := ports[|ports| - 1];
      if p in before then before else before + [p]
  }

  /** `AddMissing` for each `[start, end]` range, in order. */
  function AddRanges(acc: seq<int>, ranges: seq<(int, int)>): seq<int>
    decreases |ranges|
  {
    if ranges == [] then acc
    else
      var r := ranges[|ranges| - 1];
      AddMissing(AddRanges(acc, ranges[..|ranges| - 1]), Interval(r.0, r.1))
  }

  /** A port lies in one of `ranges`. */
  predicate InSomeRange(p: int, ranges: seq<(int, int)>) {
    exists i :: 0 <= i < |ranges| && ranges[i].0 <= p <= ranges[i].1
  }

  /** `AddMissing` keeps `acc` as a prefix, adds exactly the missing ports,
      and adds none twice. */
  lemma {:induction false} AddMissingSpec(acc: seq<int>, ports: seq<int>)
    ensures var r := AddMissing(acc, ports);
      acc <= r
      && (forall x :: x in r <==> x in acc || x in ports)
      && (NoDuplicates(acc) ==> NoDuplicates(r))
    decreases |ports|
  {
    if ports != [] {
      var init := ports[..|ports| - 1];
      AddMissingSpec(acc, init);
      assert forall x :: x in ports <==> x in init || x == ports[|ports| - 1];
    }
  }

  /** The ports of `ports` that `acc` does not hold, in their order. */
  function Absent(acc: seq<int>, ports: seq<int>): (r: seq<int>)
    ensures forall x :: x in r <==> x in ports && x !in acc
    decreases |ports|
  {
    if ports == [] then []
    else
      var init := Absent(acc, ports[..|ports| - 1]);
      var p := ports[|ports| - 1];
      assert forall x :: x in ports <==> x in ports[..|ports| - 1] || x == p;
      if p in acc then init else init + [p]
  }

  /** On a list without repeats, such as a range, `AddMissing` appends
      exactly the absent ports, in the list's order. */
  lemma {:induction false} AddMissingAppendsAbsent(acc: seq<int>, ports: seq<int>)
    requires NoDuplicates(ports)
    ensures AddMissing(acc, ports) == acc + Absent(acc, ports)
    decreases |ports|
  {
    if ports != [] {
      var init := ports[..|ports| - 1];
      var p := ports[|ports| - 1];
      assert NoDuplicates(init);
      AddMissingAppendsAbsent(acc, init);
      assert p !in init;
    }
  }

  /** The candidate list starts with `common`, holds exactly the common
      ports and the ports of the ranges, and no port twice when `common` has
      none twice. */
  lemma {:induction false} AddRangesSpec(common: seq<int>, ranges: seq<(int, int)>)
    ensures var r := AddRanges(common, ranges);
      common <= r
      && (forall x :: x in r <==> x in common || InSomeRange(x, ranges))
      && (NoDuplicates(common) ==> NoDuplicates(r))
    decreases |ranges|
  {
    if ranges != [] {
      var init := ranges[..|ranges| - 1];
      var last := ranges[|ranges| - 1];
      AddRangesSpec(common, init);
      AddMissingSpec(AddRanges(common, init), Interval(last.0, last.1));
      forall x ensures InSomeRange(x, ranges) <==> InSomeRange(x, init) || last.0 <= x <= last.1 {
        IntervalMembers(last.0, last.1, x);
        if InSomeRange(x, ranges) {
          var i :| 0 <= i < |ranges| && ranges[i].0 <= x <= ranges[i].1;
          if i < |init| {
            assert init[i] == ranges[i];
          }
        }
        if InSomeRange(x, init) {
          var i :| 0 <= i < |init| && init[i].0 <= x <= init[i].1;
          assert ranges[i] == init[i];
        }
      }
      forall x ensures x in Interval(last.0, last.1) <==> last.0 <= x <= last.1 {
        IntervalMembers(last.0, last.1, x);
      }
    }
  }

  /** The ports `quickScan` probes. */
  function QuickScanPorts(): seq<int> {
    AddRanges(COMMON_DEV_PORTS, DEFAULT_PORT_RANGES)
  }

  /** `quickScan` probes `COMMON_DEV_PORTS` first, in order, then every port
      of the default ranges that is not common; no port twice. */
  lemma QuickScanPortsSpec()
    ensures COMMON_DEV_PORTS <= QuickScanPorts()
    ensures forall p :: p in QuickScanPorts() <==> p in COMMON_DEV_PORTS || InSomeRange(p, DEFAULT_PORT_RANGES)
    ensures NoDuplicates(QuickScanPorts())
  {
    CommonDevPortsDistinct();
    AddRangesSpec(COMMON_DEV_PORTS, DEFAULT_PORT_RANGES);
  }
}
